=== FILE: README.md ===
# linear-gp-with-rl, modelled in Dafny

This project models the core of a linear genetic programming system with a
Q-learning extension. Programs are sequences of instructions that act on a
register file. A population of such programs is evolved generation by
generation:

- every individual's fitness is evaluated;
- the population is ranked best first;
- a share of the worst is dropped, as are individuals whose fitness is out of bounds;
- crossover children and mutants are bred from the survivors, and clones of survivors fill the remaining free spots as far as there are survivors to clone.

Two fitness schemes are modelled:

- **Classification accuracy.** The predicted class is the unique best action register, or -1 on a tie.
- **Q-learning.** Each program picks actions through a Q-table (register × action). Fitness is the median score over one episode per initial state.

Modules, one per source file, plus two shared helpers:

| file | module | source |
|---|---|---|
| `fitness_engine.dfy` | `FitnessEngine` | `src/core/engines/fitness_engine.rs` — the three-valued fitness score and its order |
| `instructions.dfy` | `Instructions` | `src/core/instructions.rs` — two-point crossover of instruction sequences |
| `algorithm.dfy` | `Algorithm` | `src/core/algorithm.rs` — `init_pop`, `eval_fitness`, `rank`, `survive`, `variation` and the generation iterator |
| `q_learning.dfy` | `QLearning` | `src/extensions/q_learning.rs` — the Q-table, its action choice and update, and Q-program fitness |
| `classification.dfy` | `Classification` | `src/extensions/classification.rs` — argmax with ties and accuracy fitness |
| `macros.dfy` | `Macros` | `src/utils/macros.rs` — the register-wise operations generated by `executable!` and the `executables!` table |
| `sorting.dfy` | `Sorting` | a stable insertion sort by key, standing for `population.sort()` and `sort_by` |
| `wrappers.dfy` | `Wrappers` | `Option`, and `Outcome` (a value or a panic) |

The model is written in the source's own form:

- **Imperative code becomes methods with loop invariants.** The loops of `survive`, the breeding and cloning loops of `variation` and the loops of the two `eval_fitness` methods are each proved equal to a specification function, and the properties are lemmas about that function. The register loops of the macros state their effect register by register.
- **Objects updated in place become classes.** These are `GeneticAlgorithmIter`, `QTable`, `QProgram` and the classification `Program`.

Randomness is an explicit input with its stated range:

- crossover cut points: `Cut` with `ValidFor`;
- the parent and child choices in `variation`: the `draw` stream;
- the order `choose_multiple` takes: `shuffle`, a permutation prefix;
- the Q-table's winner pick, uniform sample and random action: `Draw` with `ValidDraw`, which asks only that the picked winner be a register of the table.

Runtime panics are handled in two ways:

- Panics a caller must avoid are preconditions. Examples: the `assert_eq!` in the macros, and crossover's non-empty parents.
- Panics the generation loop itself can reach are `Outcome.Panic` results. Examples: `variation` on an empty population, and the `eval_fitness` assertion.

Behaviour of the code worth knowing:

- **Crossover.** Cut points are drawn independently in each parent, and each child is shorter than `|a| + |b|`.
- **Q-program fitness.** It is the median run's score.
- **Generation count.** The iterator yields `n_generations + 1` populations.
- **Ranking.** It compares fitness only.
- **Empty population.** `variation` panics on a population of size 0.

## Model

| member | source | states |
|---|---|---|
| `FitnessEngine.Reset` | src/core/engines/fitness_engine.rs:18-22 | a reset score is `NotEvaluated`, which is not counted as invalid |
| `FitnessEngine.ResetIdempotent` | src/core/engines/fitness_engine.rs:18-22 | resetting twice is resetting once, whatever the score was |
| `FitnessEngine.PartialCmp` | src/core/engines/fitness_engine.rs:24-33 | `Greater` iff the left score is valid and the right is invalid or smaller; `Less` symmetrically |
| `FitnessEngine.PartialCmpIsLexicographic` | src/core/engines/fitness_engine.rs:24-33 | the order is the lexicographic order on (valid or not, value), with the two invalid variants tied |
| `FitnessEngine.PartialCmpAntisymmetric` | src/core/engines/fitness_engine.rs:24-33 | swapping the arguments reverses the result; a score is `Equal` to itself |
| `FitnessEngine.ValidBeatsInvalid` | src/core/engines/fitness_engine.rs:26-31 | any valid score beats `OutOfBounds` and `NotEvaluated`, which tie with each other |
| `FitnessEngine.EqualIsCoarserThanEquality` | src/core/engines/fitness_engine.rs:24-33 | equal scores compare `Equal`, but `Equal` does not imply the same variant |
| `FitnessEngine.PredicatesPartitionNonValid` | src/core/engines/fitness_engine.rs:35-48 | `is_not_evaluated` and `is_invalid` each pick out one non-valid variant, never both, and together cover exactly the non-valid scores |
| `FitnessEngine.IsNotEvaluated` | src/core/engines/fitness_engine.rs:36-41 | true exactly of `NotEvaluated` |
| `FitnessEngine.IsInvalid` | src/core/engines/fitness_engine.rs:43-48 | true exactly of `OutOfBounds`, never of a valid or an unevaluated score |
| `FitnessEngine.UnwrapOr` | src/core/engines/fitness_engine.rs:50-55 | the valid value, or the default for either non-valid variant |
| `FitnessEngine.Unwrap` | src/core/engines/fitness_engine.rs:57-62 | defined only on valid scores (`unreachable!` otherwise), where it agrees with `unwrap_or` for every default |
| `FitnessEngine.AtLeastIsTotalPreorder` | src/core/engines/fitness_engine.rs:24-33 | "not `Less`" is total and transitive, so ranking by it is well defined |
| `Sorting.SortBy` | src/core/algorithm.rs:161 | sorting keeps the length and the multiset of elements |
| `Sorting.SortBySorted` | src/core/algorithm.rs:161 | the sort's output is ordered by key for any total preorder |
| `Sorting.InsertTies` | src/extensions/q_learning.rs:256 | insertion puts the new element before every element tied with it and keeps the order of the others |
| `Sorting.SortByKeepsTies` | src/extensions/q_learning.rs:256 | for a given key, the elements tied with it leave the sort in their input order |
| `Sorting.SortByStable` | src/extensions/q_learning.rs:256 | the sort is stable: for every key, the subsequence of elements tied with it is unchanged |
| `Sorting.InsertSorted` | src/core/algorithm.rs:161 | inserting into a key-ordered sequence keeps it ordered |
| `Sorting.InsertAtFrontSorted` | src/core/algorithm.rs:161 | an element whose key precedes the front's can go in front without breaking the order |
| `Sorting.InsertBehindSorted` | src/core/algorithm.rs:161 | an element that goes behind the front leaves the front before everything behind it |
| `Sorting.InsertMember` | src/core/algorithm.rs:161 | every element of an insertion's result is the inserted element or one of the old ones |
| `Instructions.Cut.Hi` | src/core/instructions.rs:21-45 | the chunk's end is after its start and within the parent, and is the parent's end exactly when no end index was drawn |
| `Instructions.Splice` | src/core/instructions.rs:51-63 | a splice keeps the prefix before the cut, inserts the chunk and keeps the tail after the cut |
| `Instructions.Crossover` | src/core/instructions.rs:9-69 | each child is as long as its parent with its own chunk's length replaced by the mate's chunk's length |
| `Instructions.TwoPointCrossover` | src/core/instructions.rs:9-69 | each child is its parent with its chunk replaced by the mate's chunk |
| `Instructions.CrossoverConservesLength` | src/core/instructions.rs:107-126 | children are non-empty, their lengths sum to the parents' sum, and neither exceeds `|a| + |b|` |
| `Instructions.CrossoverConservesInstructions` | src/core/instructions.rs:35-63 | the two children hold exactly the parents' instructions, as a multiset |
| `Instructions.MultisetOfThreeParts` | src/core/instructions.rs:51-63 | cutting a parent into prefix, chunk and tail keeps its multiset of instructions |
| `Instructions.CrossoverKeepsParentEnds` | src/core/instructions.rs:51-63 | each child starts with its parent's prefix and, when an end was drawn, ends with its parent's tail |
| `Instructions.CrossoverSwapBack` | src/core/instructions.rs:35-63 | swapping the chunks back restores both parents |
| `Algorithm.InitPop` | src/core/algorithm.rs:134-142 | `population_size` generated individuals, in generation order, with the parameters unchanged |
| `Algorithm.EvaluateAll` | src/core/algorithm.rs:144-154 | panics iff some evaluated individual is still `NotEvaluated`; otherwise each individual is replaced by its evaluation |
| `Algorithm.EvalFitness` | src/core/algorithm.rs:144-154 | the loop that evaluates and asserts in place yields exactly `EvaluateAll` |
| `Algorithm.Rank` | src/core/algorithm.rs:157-165 | a permutation of the population, sorted best first, with `worst <= best` |
| `Algorithm.RankKeepsEvaluated` | src/core/algorithm.rs:157-165 | ranking an evaluated population leaves no individual `NotEvaluated` |
| `Algorithm.TrailingInvalid` | src/core/algorithm.rs:194-198 | the length of the run of `OutOfBounds` individuals at the worst end, and the individual before it is not one |
| `Algorithm.DropCount` | src/core/algorithm.rs:191-192 | the signed drop count lies in `[0, len]` for a gap in [0, 1], is at most 0 for a gap at most 0 and at least `len` for a gap at least 1 |
| `Algorithm.SurvivorCount` | src/core/algorithm.rs:189-204 | survivors never include the trailing invalid individuals |
| `Algorithm.Survive` | src/core/algorithm.rs:185-207 | the two popping loops leave the best `SurvivorCount` individuals, in order |
| `Algorithm.SurvivorsWithoutInvalid` | src/core/algorithm.rs:191-192 | with no invalids and `gap` in [0, 1], exactly `floor((1 - gap) * len)` survive |
| `Algorithm.SurvivorsAreValid` | src/core/algorithm.rs:194-204 | in a ranked, fully evaluated population every survivor is `Valid` |
| `Algorithm.FloorToUsize` | src/core/algorithm.rs:223-226 | the `floor() as usize` cast: the floor for a non-negative value, saturated to 0 below zero |
| `Algorithm.OffspringCount` | src/core/algorithm.rs:223-226 | `floor(spots * percent)` for a non-negative percentage, never more than the free spots for a percentage at most 1, and 0 for a negative one |
| `Algorithm.PassOffspring` | src/core/algorithm.rs:233-272 | one breeding pass pushes one child per counter still positive |
| `Algorithm.BreedLength` | src/core/algorithm.rs:223-272 | the breeding loop pushes exactly `n_crossovers + n_mutations` offspring |
| `Algorithm.BreedPass` | src/core/algorithm.rs:234-268 | a pass pushes `PassOffspring`, decrements each positive counter and spends one free spot per child |
| `Algorithm.BreedLoop` | src/core/algorithm.rs:233-272 | the loop pushes `Breed` and leaves `spots - n_crossovers - n_mutations` free spots |
| `Algorithm.FillWithClones` | src/core/algorithm.rs:274-280 | the clone loop pushes duplicates of the first `min(spots, len)` members of a random order |
| `Algorithm.VariationOutcome` | src/core/algorithm.rs:209-285 | a result that is not a panic comes from a non-empty population and keeps it as a prefix |
| `Algorithm.Variation` | src/core/algorithm.rs:209-285 | the method's early returns and loops compute exactly `VariationOutcome` |
| `Algorithm.VariationShape` | src/core/algorithm.rs:209-285 | panics iff the population is empty or the counts exceed the free spots; a full vector is returned unchanged; otherwise the result keeps the population as a prefix, adds the bred offspring and the clones, and never exceeds the capacity |
| `Algorithm.Generation` | src/core/algorithm.rs:98-124 | a generation that does not panic yields a permutation of the evaluated population |
| `Algorithm.GenerationStep` | src/core/algorithm.rs:93-125 | for the outcome `g` of one generation, passed in: a generation yields an evaluated, ranked population of the same size; the next population starts with its survivors, which are all `Valid`, and is never larger |
| `Algorithm.GeneticAlgorithmIter.constructor` | src/core/algorithm.rs:74-84 | a new iterator is at generation 0 holding an `init_pop` population |
| `Algorithm.GeneticAlgorithmIter.Next` | src/core/algorithm.rs:93-125 | `None` iff the counter has passed `n_generations`; otherwise yields the ranked population, stores the varied next one and raises the counter; a panic leaves the iterator unchanged |
| `Algorithm.CountYields` | src/core/algorithm.rs:93-96 | barring a panic, an iterator at generation `g` yields `n_generations + 1 - g` populations before `None` |
| `QLearning.DefaultConsts` | src/extensions/q_learning.rs:340-348 | the default `epsilon` lies in [0, 1], `alpha` in (0, 1] and `gamma` in [0, 1) |
| `QLearning.Zeros` | src/extensions/q_learning.rs:55-56 | an `n_registers` × `n_actions` table of zeros |
| `QLearning.ArgMax` | src/extensions/q_learning.rs:75-78 | an in-range index whose value no other value exceeds |
| `QLearning.EvalAction` | src/extensions/q_learning.rs:81-111 | no pair iff no register wins; a pair always names a register and an action inside the table |
| `QLearning.EvalActionSpec` | src/extensions/q_learning.rs:81-111 | no pair iff no register wins; otherwise the register is the chosen winner, and the action is the random one when `prob < epsilon` and a best action of that register's row otherwise |
| `QLearning.UpdatedTable` | src/extensions/q_learning.rs:113-127 | the updated table keeps the `n_registers` × `n_actions` shape |
| `QLearning.UpdatedTableSpec` | src/extensions/q_learning.rs:113-127 | only the current cell changes, by `alpha * (reward + gamma * next - current)`, with `next` the argmax index of the next register's row |
| `QLearning.QTable.constructor` | src/extensions/q_learning.rs:55-63 | a new table is all zeros with the given dimensions and constants |
| `QLearning.QTable.WithTable` | src/extensions/q_learning.rs:28-34 | a table holding the given values with the given dimensions and constants |
| `QLearning.QTable.DuplicateNew` | src/extensions/q_learning.rs:48-52 | a fresh all-zero table with the same dimensions and constants |
| `QLearning.QTable.Clone` | src/extensions/q_learning.rs:188 | a fresh table with equal contents |
| `QLearning.QTable.Eval` | src/extensions/q_learning.rs:81-111 | no pair iff no register wins; otherwise a register and an action inside the table |
| `QLearning.QTable.ActionArgmax` | src/extensions/q_learning.rs:69-79 | for a register inside the table, a column below `n_actions` holding the row's largest value |
| `QLearning.QTable.Update` | src/extensions/q_learning.rs:113-127 | the table becomes `UpdatedTable` of the old one and stays well shaped |
| `QLearning.Steps` | src/extensions/q_learning.rs:207-238 | a run that does not bail out keeps the table's shape and takes at most `max_episode_length` steps |
| `QLearning.StepsNext` | src/extensions/q_learning.rs:207-238 | one step: a terminal answer ends the run with the reward added and `step + 1` steps; a failed lookup bails out; otherwise the run goes on from the next pair, with the table updated only if the register changed |
| `QLearning.StepsEnd` | src/extensions/q_learning.rs:207 | a run that reaches `max_episode_length` steps ends there with its table and score |
| `QLearning.Episode` | src/extensions/q_learning.rs:187-238 | one run from the cloned table takes at most `max_episode_length` steps and keeps the table's shape |
| `QLearning.Runs` | src/extensions/q_learning.rs:185-254 | when no run bails out, there is one run per initial state |
| `QLearning.RunsNoneIff` | src/extensions/q_learning.rs:194-229 | the runs bail out iff the first lookup or a later lookup of some initial state's run fails |
| `QLearning.RunsAreEpisodes` | src/extensions/q_learning.rs:187-253 | when no run bails out, the j-th pushed run is the run of the j-th initial state |
| `QLearning.RunsBailOut` | src/extensions/q_learning.rs:199-203 | one run bailing out makes the whole evaluation bail out, whatever the other runs do |
| `QLearning.SortedRuns` | src/extensions/q_learning.rs:256 | the runs, permuted, in ascending order of score; runs with equal scores keep the order of their initial states |
| `QLearning.MedianRun` | src/extensions/q_learning.rs:257 | the run `swap_remove(len / 2)` takes is one of the runs |
| `QLearning.MedianRunIsMedian` | src/extensions/q_learning.rs:256-257 | the chosen run is one of the runs; none sorted before it scores more, none sorted after it scores less |
| `QLearning.MedianRunShaped` | src/extensions/q_learning.rs:256-261 | the table kept from the median run has the shape of the program's table |
| `QLearning.EarlyEndIsTerminal` | src/extensions/q_learning.rs:207-216 | for the result `r` of a run from some step on, passed in: if it ends before `max_episode_length` steps, the environment answered terminal, at the run's last step, to the action of the pair the run held then |
| `QLearning.SameRegisterKeepsTable` | src/extensions/q_learning.rs:233-235 | while the chosen register never changes, the run leaves the table untouched |
| `QLearning.EpisodeStep` | src/extensions/q_learning.rs:208-237 | one loop iteration: a terminal answer leaves the table and completes the run; a failed lookup means the run bails out; otherwise what remains of the run from the new pair and table is what remained before |
| `QLearning.EpisodeLoop` | src/extensions/q_learning.rs:207-238 | the loop over steps from the first pair computes exactly the run `Steps` describes, leaving the table as that run's table |
| `QLearning.PlayEpisode` | src/extensions/q_learning.rs:187-238 | the inner loop over steps computes exactly `Episode`, leaving the cloned table as the run's table |
| `QLearning.CollectRuns` | src/extensions/q_learning.rs:187-254 | the loop over initial states, each played on a fresh clone, returns exactly `Runs` and leaves the program's table alone |
| `QLearning.QProgram.constructor` | src/extensions/q_learning.rs:130-138 | a Q-program holds the given program and table |
| `QLearning.QProgram.Equals` | src/extensions/q_learning.rs:140-148 | Q-programs with equal programs compare `Equal` in the fitness order, whatever their tables |
| `QLearning.QProgram.PartialCmp` | src/extensions/q_learning.rs:150-158 | comparing the other way round gives the reversed order |
| `QLearning.QProgram.GetFitness` | src/extensions/q_learning.rs:266-268 | the wrapped program's score, which `QProgram.EvalFitness` leaves evaluated |
| `QLearning.QProgram.TwoPointCrossover` | src/extensions/q_learning.rs:276-282 | the programs' two children, each with its own fresh zero table shaped like this parent's |
| `QLearning.QProgram.Mutate` | src/extensions/q_learning.rs:290-296 | the mutated program with a fresh zero table of the same shape |
| `QLearning.QProgram.EvalFitness` | src/extensions/q_learning.rs:184-264 | if any run bails out, the fitness is `OutOfBounds` and the table is kept; otherwise the fitness is the median run's score and the table is that run's table; the old table object is never changed; afterwards `get_fitness` is never `NotEvaluated` |
| `Classification.MaxVal` | src/extensions/classification.rs:31-32 | a value of the sequence that no element exceeds |
| `Classification.IndicesOf` | src/extensions/classification.rs:34-39 | exactly the positions holding the value, strictly increasing |
| `Classification.IndicesOfComplete` | src/extensions/classification.rs:34-39 | every position holding the value is collected |
| `Classification.IndicesOfMaxNonEmpty` | src/extensions/classification.rs:31-39 | the maximum is collected at least once, so `indices.remove(0)` cannot panic |
| `Classification.IndicesOfMaxShared` | src/extensions/classification.rs:34-42 | two collected positions mean two registers share the maximum |
| `Classification.IndicesOfMaxUnique` | src/extensions/classification.rs:34-45 | one collected position means every other register is strictly smaller, so the maximum is not shared |
| `Classification.Argmax` | src/extensions/classification.rs:29-46 | -1 or an index of an action register |
| `Classification.ArgmaxSpec` | src/extensions/classification.rs:29-46 | -1 iff two action registers share the maximum; otherwise the index of the one action register strictly above all others |
| `Classification.AsI32` | src/extensions/classification.rs:68 | the `usize as i32` cast: the value in the `i32` range congruent to the class modulo 2^32, the class itself below 2^31 |
| `Classification.Correct` | src/extensions/classification.rs:65-72 | correct iff the class cast to `i32` is -1 and two action registers share the maximum, or the cast is an action register's index and that register holds the unique maximum; any other class is never correct |
| `Classification.NCorrect` | src/extensions/classification.rs:62-75 | the number of correct predictions is at most the number of inputs |
| `Classification.NCorrectStep` | src/extensions/classification.rs:64-75 | the count from input `k` on is input `k`'s verdict from the current registers plus the count over the rest from the reset state |
| `Classification.NCorrectSplits` | src/extensions/classification.rs:64-75 | since registers are reset after each input, the count over a concatenation is the sum of the counts |
| `Classification.Accuracy` | src/extensions/classification.rs:77 | NaN iff there are no inputs; otherwise in [0, 1], 1 iff all are correct and 0 iff none are |
| `Classification.Program.EvalFitness` | src/extensions/classification.rs:59-82 | returns and stores the accuracy of the counted predictions (in [0, 1] for non-empty inputs), keeps the stored fitness an accuracy, and leaves the registers in the reset state |
| `Classification.Program.GetFitness` | src/extensions/classification.rs:84-86 | `None` before any evaluation, otherwise a stored accuracy: NaN or a fraction in [0, 1] |
| `Classification.Program.CountCorrect` | src/extensions/classification.rs:62-75 | the loop counts exactly `NCorrect`, leaves the registers reset (unchanged for no inputs) and does not touch the stored fitness |
| `Classification.Program.Classify` | src/extensions/classification.rs:65-74 | one input: the result says whether the predicted class equals the input's class cast to `i32`, and the registers end up reset |
| `Macros.ExecutableScalar` | src/utils/macros.rs:3-12 | every register becomes `old op val`, `data` is unchanged, and the same slice is returned |
| `Macros.ExecutableElementWise` | src/utils/macros.rs:15-24 | every register becomes `old op data[i]`, `data` is unchanged, and the same slice is returned |
| `Macros.Executables` | src/utils/macros.rs:29-37 | one entry per listed path, in order, named by the path and holding its function |

## Left out

- **Floating point.** Scores, register values and Q-values are exact reals. NaN in `partial_cmp`, the `unwrap` in `sort_by` on NaN scores, and f64 rounding in `floor((1 - gap) * len)` and `floor(spots * percent)` are not modelled, nor the saturating `as isize` casts and the `isize` overflow in `survive`'s drop count once `|(1 - gap) * len|` reaches 2^63. The single NaN kept is classification's 0/0 accuracy.
- **Code not part of this model**, taken as abstract functions: `Program::exec`, `Program::two_point_crossover` and `Program::mutate` (wrapped by `QProgram`), `Registers::all_argmax`, `Registers::reset`, `float_ops::argmax`/`max_val`, `Organism::generate`, `Population` and the environment.
  - `ArgMax` and `MaxVal` stand in for `float_ops`, and `ArgMax` picks the first maximal index. Which tied index `float_ops::argmax` returns is not part of this model. It matters for the update rule, which uses the index as a number.
- **The environment.** `update_state`, `reset`, `finish`, `init` and the `on_pre_rank`/`on_post_rank` hooks of `QLgp` are I/O. The program's execution on each observation, including the register reset between runs, is folded into `Environment.observe`.
- **Randomness.** Distributions are not modelled, only the ranges of the draws.
- **`QProgram.EvalFitness`: requires at least one initial state.** With none, `swap_remove` on the empty vector panics.
- **`QProgram.EvalFitness`: requires `epsilon` in [0, 1] for every run.** The source asserts this only when a register wins a lookup. With the wrong `epsilon`, a run that bails out at its first lookup would not panic in the source; the model does not cover that case.
- **`Classification.Argmax`: requires `0 < N_ACTION_REGISTERS <= len`.** This is a type-level constant of the input. Outside that range the slice or the `expect` panics.
- **Debug builds.** Variation's `debug_assert!`s are modelled as panics; crossover's become preconditions. Release-build behaviour without them is not modelled.
- **`GeneticAlgorithm::build`**: logging and a run id.
- **Logging and serialization**: the `info!`/`debug!` records, `serde` and the `Valuable`/`Debug` impls.
- **`Loader::load_from_csv`**: file I/O.
- **`QProgram::generate`**: a composition of `Program::generate` and `QTable::new`, which is modelled.
- **The binaries, examples, benches and test fixtures**: `src/main.rs`, the `mountain_car` and `q_mountain_car` example binaries, the benchmark, `src/problems/mountain_car.rs`, `src/utils/test.rs` and `src/core/inputs.rs`. These are drivers and I/O plumbing.
- QLearning.QProgram.Equals: `Program`'s `PartialEq` is not part of this model. It is taken as structural equality of instructions and fitness. The clause that equal Q-programs compare `Equal` rests on that assumption.
- **Ranking order of ties.** `Population::sort` is not part of this model. It is modelled as a stable insertion sort, so tied individuals keep their previous order; the source does not show whether its sort is stable.
- Algorithm.Generation and Algorithm.GeneticAlgorithmIter.Next: the capacity of the next population is assumed. `Population` is not part of this model. The capacity `variation` fills up to is taken as the ranked population's length, as for a cloned `Vec`. `GenerationStep`'s "never larger" rests on that.
- **The `last` field of a run** is not kept by the source, which stores only the score and the table. The model keeps it, like the step count, to state why a run ended early.
- **Thread safety and data-parallel evaluation** are not modelled. The loops are sequential, as in the source.

=== FILE: algorithm.dfy ===
/** The generation loop of the genetic algorithm (src/core/algorithm.rs):
    the iterator's generation counter, `init_pop`, `eval_fitness`, `rank`,
    `survive` and `variation`. A population is a sequence ordered best first,
    so its last element is `worst()`. Generating, evaluating, mutating,
    crossing and duplicating individuals, and every random draw, are
    abstract operators passed in as functions. The pass-through hooks
    (`on_pre_init`, `on_pre_eval_fitness`, `on_post_rank`) are the identity. */
module Algorithm {
  import opened Wrappers
  import opened FitnessEngine
  import Sorting

  datatype HyperParameters = HyperParameters(
    populationSize: nat,
    gap: real,
    mutationPercent: real,
    crossoverPercent: real,
    nGenerations: nat)

  /** An organism: its program (left abstract) and its fitness score. */
  datatype Individual<P> = Individual(program: P, fitness: FitnessScore)

  /** The organism operations and the random sources the loop draws from.
      `draw(k)` is the k-th random number used to pick parents and children;
      `shuffle(n)` is a random ordering of `n` indices, of which
      `choose_multiple` takes a prefix. */
  datatype Operators<!P> = Operators(
    evaluate: Individual<P> -> Individual<P>,
    crossover: (Individual<P>, Individual<P>) -> (Individual<P>, Individual<P>),
    mutate: Individual<P> -> Individual<P>,
    duplicateNew: Individual<P> -> Individual<P>,
    draw: nat -> nat,
    shuffle: nat -> seq<nat>)

  /** `s` lists `n` distinct indices below `n`. */
  ghost predicate IsShuffle(s: seq<nat>, n: nat) {
    && |s| == n
    && (forall i :: 0 <= i < n ==> s[i] < n)
    && (forall i, j :: 0 <= i < j < n ==> s[i] != s[j])
  }

  ghost predicate Shuffles<P>(ops: Operators<P>) {
    forall n :: IsShuffle(ops.shuffle(n), n)
  }

  function Score<P>(ind: Individual<P>): FitnessScore {
    ind.fitness
  }

  function Min(a: int, b: int): int { if a <= b then a else b }

  function Max(a: int, b: int): int { if a >= b then a else b }

  // ---------------------------------------------------------------- init_pop

  /** `init_pop`: `population_size` freshly generated individuals (the i-th
      call of `generate` gives the i-th), with the hyperparameters returned as given. */
  function InitPop<P>(params: HyperParameters, generate: nat -> Individual<P>): (r: (seq<Individual<P>>, HyperParameters))
    ensures |r.0| == params.populationSize
    ensures forall i :: 0 <= i < |r.0| ==> r.0[i] == generate(i)
    ensures r.1 == params
  {
    (seq(params.populationSize, i requires 0 <= i => generate(i)), params)
  }

  // ------------------------------------------------------------ eval_fitness

  /** Every individual evaluated in order; the `assert!` after each evaluation
      panics on a score still `NotEvaluated`. */
  function EvaluateAll<P>(population: seq<Individual<P>>, evaluate: Individual<P> -> Individual<P>): (r: Outcome<seq<Individual<P>>>)
    ensures r.Ok? <==> forall i :: 0 <= i < |population| ==> !IsNotEvaluated(evaluate(population[i]).fitness)
    ensures r.Ok? ==> |r.value| == |population|
    ensures r.Ok? ==> forall i :: 0 <= i < |population| ==> r.value[i] == evaluate(population[i]) && !IsNotEvaluated(r.value[i].fitness)
  {
    if exists i :: 0 <= i < |population| && IsNotEvaluated(evaluate(population[i]).fitness) then
      Panic("individual left not evaluated")
    else
      Ok(seq(|population|, i requires 0 <= i < |population| => evaluate(population[i])))
  }

  method EvalFitness<P>(population: seq<Individual<P>>, evaluate: Individual<P> -> Individual<P>) returns (r: Outcome<seq<Individual<P>>>)
    ensures r == EvaluateAll(population, evaluate)
  {
    var evaluated := population;
    var i := 0;
    while i < |evaluated|
      invariant 0 <= i <= |evaluated| == |population|
      invariant forall k :: 0 <= k < i ==> evaluated[k] == evaluate(population[k]) && !IsNotEvaluated(evaluated[k].fitness)
      invariant evaluated[i..] == population[i..]
    {
      assert evaluated[i] == population[i];
      evaluated := evaluated[i := evaluate(evaluated[i])];
      if IsNotEvaluated(evaluated[i].fitness) {
        return Panic("individual left not evaluated");
      }
      i := i + 1;
    }
    r := Ok(evaluated);
    assert evaluated == seq(|population|, i requires 0 <= i < |population| => evaluate(population[i]));
  }

  // -------------------------------------------------------------------- rank

  /** `rank`: the population sorted best first. */
  function Rank<P>(population: seq<Individual<P>>): (r: seq<Individual<P>>)
    ensures multiset(r) == multiset(population)
    ensures Sorting.SortedBy(r, Score, AtLeast)
    ensures |population| > 0 ==> |r| > 0 && AtLeast(r[0].fitness, r[|r| - 1].fitness)
  {
    AtLeastIsTotalPreorder();
    Sorting.SortBySorted(population, Score, AtLeast);
    Sorting.SortBy(population, Score, AtLeast)
  }

  // ----------------------------------------------------------------- survive

  /** How many individuals at the worst end are `OutOfBounds`. */
  function TrailingInvalid<P>(population: seq<Individual<P>>): (k: nat)
    ensures k <= |population|
    ensures forall i :: |population| - k <= i < |population| ==> IsInvalid(population[i].fitness)
    ensures k < |population| ==> !IsInvalid(population[|population| - k - 1].fitness)
  {
    if |population| == 0 || !IsInvalid(population[|population| - 1].fitness) then 0
    else 1 + TrailingInvalid(population[..|population| - 1])
  }

  /** `pop_len - floor((1 - gap) * pop_len)`, a signed count (the `as isize`
      casts are exact while `|(1 - gap) * pop_len| < 2^63`): a gap in `[0, 1]` drops between none
      and all of the population, a negative gap asks for none, and a gap
      above 1 for more than all. */
  function DropCount(len: nat, gap: real): (d: int)
    ensures gap >= 0.0 ==> d >= 0
    ensures gap <= 1.0 ==> d <= len
    ensures gap <= 0.0 ==> d <= 0
    ensures gap >= 1.0 ==> d >= len
  {
    var kept := (1.0 - gap) * len as real;
    assert len as real - kept == gap * len as real;
    assert gap >= 0.0 ==> gap * len as real >= 0.0;
    assert gap <= 0.0 ==> gap * len as real <= 0.0;
    len - kept.Floor
  }

  /** How many individuals `survive` keeps. */
  function SurvivorCount<P>(population: seq<Individual<P>>, gap: real): (n: nat)
    ensures n <= |population| - TrailingInvalid(population)
  {
    Max(0, |population| - Max(TrailingInvalid(population), DropCount(|population|, gap)))
  }

  /** `survive`: pops the invalid individuals at the worst end, then keeps
      popping until the gap's share has been dropped (`pop` on an empty
      vector does nothing). */
  method Survive<P>(population: seq<Individual<P>>, gap: real) returns (r: seq<Individual<P>>)
    ensures r == population[..SurvivorCount(population, gap)]
  {
    var pop := population;
    var toDrop := DropCount(|pop|, gap);
    while |pop| > 0 && IsInvalid(pop[|pop| - 1].fitness)
      invariant |pop| <= |population| && pop == population[..|pop|]
      invariant toDrop == DropCount(|population|, gap) - (|population| - |pop|)
      invariant TrailingInvalid(population) == TrailingInvalid(pop) + (|population| - |pop|)
    {
      pop := pop[..|pop| - 1];
      toDrop := toDrop - 1;
    }
    while toDrop > 0
      invariant |pop| <= |population| && pop == population[..|pop|]
      invariant Max(0, |pop| - Max(0, toDrop)) == SurvivorCount(population, gap)
    {
      toDrop := toDrop - 1;
      if |pop| > 0 {
        pop := pop[..|pop| - 1];
      }
    }
    r := pop;
  }

  /** With no invalid individual and a gap in [0, 1], exactly
      `floor((1 - gap) * len)` individuals survive. */
  lemma SurvivorsWithoutInvalid<P>(population: seq<Individual<P>>, gap: real)
    requires 0.0 <= gap <= 1.0
    requires TrailingInvalid(population) == 0
    ensures SurvivorCount(population, gap) == ((1.0 - gap) * |population| as real).Floor
  {
    var len := |population| as real;
    assert 0.0 <= (1.0 - gap) * len <= len by {
      assert len - (1.0 - gap) * len == gap * len;
      assert gap * len >= 0.0;
    }
  }

  /** In a ranked population with nothing left unevaluated, every individual
      `survive` keeps is `Valid`. */
  lemma SurvivorsAreValid<P>(population: seq<Individual<P>>, gap: real)
    requires Sorting.SortedBy(population, Score, AtLeast)
    requires forall i :: 0 <= i < |population| ==> !IsNotEvaluated(population[i].fitness)
    ensures forall i :: 0 <= i < SurvivorCount(population, gap) ==> population[i].fitness.Valid?
  {
    var k := TrailingInvalid(population);
    if k < |population| {
      var w := |population| - k - 1;
      assert population[w].fitness.Valid?;
      forall i | 0 <= i < w ensures population[i].fitness.Valid? {
        assert AtLeast(Score(population[i]), Score(population[w]));
      }
    }
  }

  // --------------------------------------------------------------- variation

  /** `(x).floor() as usize`: the cast saturates negative values to zero. */
  function FloorToUsize(x: real): (n: nat)
    ensures x >= 0.0 ==> n as real <= x < n as real + 1.0
    ensures x < 0.0 ==> n == 0
  {
    if x.Floor < 0 then 0 else x.Floor
  }

  /** `floor(spots * percent)` offspring of one kind: never more than the free
      spots while the percentage is at most 1, none for a negative one. */
  function OffspringCount(spots: nat, percent: real): (n: nat)
    ensures percent >= 0.0 ==> n as real <= spots as real * percent < n as real + 1.0
    ensures percent <= 1.0 ==> n <= spots
    ensures percent < 0.0 ==> n == 0
  {
    ScaledBounds(spots as real, percent);
    FloorToUsize(spots as real * percent)
  }

  /** Scaling a non-negative amount by at most 1 does not increase it, and
      by a negative factor does not make it positive. */
  lemma ScaledBounds(amount: real, factor: real)
    requires amount >= 0.0
    ensures factor <= 1.0 ==> amount * factor <= amount
    ensures factor < 0.0 ==> amount * factor <= 0.0
  {
    if factor <= 1.0 {
      assert amount - amount * factor == amount * (1.0 - factor);
    }
  }

  function Dec(n: nat): nat { if n > 0 then n - 1 else 0 }

  /** One of the two crossover children, picked by a random draw. */
  function ChooseChild<I>(children: (I, I), d: nat): I {
    if d % 2 == 0 then children.0 else children.1
  }

  /** What one pass of the breeding loop pushes: a crossover child of two
      randomly chosen parents while crossovers remain, then one of the two
      parents mutated while mutations remain. */
  function PassOffspring<P>(population: seq<Individual<P>>, nCrossovers: nat, nMutations: nat, ops: Operators<P>, pass: nat): (born: seq<Individual<P>>)
    requires |population| > 0
    ensures |born| == (if nCrossovers > 0 then 1 else 0) + (if nMutations > 0 then 1 else 0)
  {
    var parentA := population[ops.draw(4 * pass) % |population|];
    var parentB := population[ops.draw(4 * pass + 1) % |population|];
    var crossed := if nCrossovers > 0 then [ChooseChild(ops.crossover(parentA, parentB), ops.draw(4 * pass + 2))] else [];
    var mutated := if nMutations > 0 then [ops.mutate(if ops.draw(4 * pass + 3) % 2 == 0 then parentA else parentB)] else [];
    crossed + mutated
  }

  /** The offspring the breeding loop pushes, from pass `pass` on. */
  function Breed<P>(population: seq<Individual<P>>, nCrossovers: nat, nMutations: nat, ops: Operators<P>, pass: nat): seq<Individual<P>>
    requires |population| > 0
    decreases nCrossovers + nMutations
  {
    if nCrossovers + nMutations == 0 then []
    else PassOffspring(population, nCrossovers, nMutations, ops, pass) + Breed(population, Dec(nCrossovers), Dec(nMutations), ops, pass + 1)
  }

  /** `k` free spots filled with fresh duplicates of distinct members, as far as the population reaches. */
  function Clones<P>(population: seq<Individual<P>>, k: nat, ops: Operators<P>): seq<Individual<P>>
    requires IsShuffle(ops.shuffle(|population|), |population|)
  {
    var order := ops.shuffle(|population|);
    seq(Min(k, |population|), j requires 0 <= j < Min(k, |population|) => ops.duplicateNew(population[order[j]]))
  }

  /** What `variation` returns for a population held in a vector of the given capacity. */
  function VariationOutcome<P>(population: seq<Individual<P>>, capacity: nat, params: HyperParameters, ops: Operators<P>): (r: Outcome<seq<Individual<P>>>)
    requires |population| <= capacity
    requires IsShuffle(ops.shuffle(|population|), |population|)
    ensures r.Ok? ==> 0 < |population| <= |r.value| && r.value[..|population|] == population
  {
    if |population| == 0 then Panic("population.len() > 0")
    else
      var spots := capacity - |population|;
      if spots == 0 then Ok(population)
      else
        var nMutations := OffspringCount(spots, params.mutationPercent);
        var nCrossovers := OffspringCount(spots, params.crossoverPercent);
        if nMutations + nCrossovers > spots then Panic("n_mutations + n_crossovers <= remaining_pool_spots")
        else Ok(population + Breed(population, nCrossovers, nMutations, ops, 0) + Clones(population, spots - nCrossovers - nMutations, ops))
  }

  method Variation<P>(population: seq<Individual<P>>, capacity: nat, params: HyperParameters, ops: Operators<P>) returns (r: Outcome<seq<Individual<P>>>)
    requires |population| <= capacity
    requires IsShuffle(ops.shuffle(|population|), |population|)
    ensures r == VariationOutcome(population, capacity, params, ops)
  {
    if |population| == 0 {
      return Panic("population.len() > 0");
    }
    var remainingPoolSpots := capacity - |population|;
    if remainingPoolSpots == 0 {
      return Ok(population);
    }
    var nMutations := OffspringCount(remainingPoolSpots, params.mutationPercent);
    var nCrossovers := OffspringCount(remainingPoolSpots, params.crossoverPercent);
    if nMutations + nCrossovers > remainingPoolSpots {
      return Panic("n_mutations + n_crossovers <= remaining_pool_spots");
    }
    var offspring;
    offspring, remainingPoolSpots := BreedLoop(population, nCrossovers, nMutations, remainingPoolSpots, ops);
    var clones := FillWithClones(population, remainingPoolSpots, ops);
    r := Ok(population + offspring + clones);
  }

  /** The `while (n_crossovers + n_mutations) > 0` loop of `variation`. */
  method BreedLoop<P>(population: seq<Individual<P>>, nCrossovers: nat, nMutations: nat, remainingPoolSpots: nat, ops: Operators<P>)
    returns (offspring: seq<Individual<P>>, remaining: nat)
    requires |population| > 0
    requires nCrossovers + nMutations <= remainingPoolSpots
    ensures offspring == Breed(population, nCrossovers, nMutations, ops, 0)
    ensures remaining == remainingPoolSpots - nCrossovers - nMutations
  {
    var nC: nat, nM: nat := nCrossovers, nMutations;
    remaining := remainingPoolSpots;
    offspring := [];
    var pass := 0;
    while nC + nM > 0
      invariant nC + nM <= remaining
      invariant remaining - nC - nM == remainingPoolSpots - nCrossovers - nMutations
      invariant offspring + Breed(population, nC, nM, ops, pass) == Breed(population, nCrossovers, nMutations, ops, 0)
      decreases nC + nM
    {
      var born;
      ghost var before := offspring;
      born, nC, nM, remaining := BreedPass(population, nC, nM, remaining, ops, pass);
      offspring := offspring + born;
      assert offspring + Breed(population, nC, nM, ops, pass + 1) == before + (born + Breed(population, nC, nM, ops, pass + 1));
      pass := pass + 1;
    }
  }

  /** One pass of that loop: choose two parents, then push a crossover child
      and a mutant as the counters allow, each taking one free spot. */
  method BreedPass<P>(population: seq<Individual<P>>, nCrossovers: nat, nMutations: nat, remainingPoolSpots: nat, ops: Operators<P>, pass: nat)
    returns (born: seq<Individual<P>>, nC: nat, nM: nat, remaining: nat)
    requires |population| > 0
    requires 0 < nCrossovers + nMutations <= remainingPoolSpots
    ensures born == PassOffspring(population, nCrossovers, nMutations, ops, pass)
    ensures nC == Dec(nCrossovers) && nM == Dec(nMutations)
    ensures remaining == remainingPoolSpots - |born|
  {
    nC, nM, remaining := nCrossovers, nMutations, remainingPoolSpots;
    born := [];
    var parentA := population[ops.draw(4 * pass) % |population|];
    var parentB := population[ops.draw(4 * pass + 1) % |population|];
    if nC > 0 {
      var child := ChooseChild(ops.crossover(parentA, parentB), ops.draw(4 * pass + 2));
      remaining := remaining - 1;
      nC := nC - 1;
      born := born + [child];
    }
    if nM > 0 {
      var parents := [parentA, parentB];
      var child := ops.mutate(parents[ops.draw(4 * pass + 3) % 2]);
      remaining := remaining - 1;
      nM := nM - 1;
      born := born + [child];
    }
  }

  /** The closing `choose_multiple` loop: a fresh duplicate of each of up to
      `remainingPoolSpots` distinct members. */
  method FillWithClones<P>(population: seq<Individual<P>>, remainingPoolSpots: nat, ops: Operators<P>) returns (clones: seq<Individual<P>>)
    requires IsShuffle(ops.shuffle(|population|), |population|)
    ensures clones == Clones(population, remainingPoolSpots, ops)
  {
    var order := ops.shuffle(|population|);
    var chosen := order[..Min(remainingPoolSpots, |population|)];
    clones := [];
    for j := 0 to |chosen|
      invariant clones == Clones(population, remainingPoolSpots, ops)[..j]
    {
      clones := clones + [ops.duplicateNew(population[chosen[j]])];
    }
  }

  lemma {:induction false} BreedLength<P>(population: seq<Individual<P>>, nCrossovers: nat, nMutations: nat, ops: Operators<P>, pass: nat)
    requires |population| > 0
    ensures |Breed(population, nCrossovers, nMutations, ops, pass)| == nCrossovers + nMutations
    decreases nCrossovers + nMutations
  {
    if nCrossovers + nMutations > 0 {
      BreedLength(population, Dec(nCrossovers), Dec(nMutations), ops, pass + 1);
    }
  }

  /** `variation` panics exactly on an empty population or counts that do not
      fit the free spots; otherwise it keeps the population as a prefix, adds
      `n_crossovers + n_mutations` bred offspring and as many clones as the
      remaining spots and the population allow, and never outgrows the capacity.
      A full vector comes back unchanged. */
  lemma VariationShape<P>(population: seq<Individual<P>>, capacity: nat, params: HyperParameters, ops: Operators<P>)
    requires |population| <= capacity
    requires IsShuffle(ops.shuffle(|population|), |population|)
    ensures var r := VariationOutcome(population, capacity, params, ops);
      var spots := capacity - |population|;
      var nMutations := OffspringCount(spots, params.mutationPercent);
      var nCrossovers := OffspringCount(spots, params.crossoverPercent);
      && (r.Panic? <==> |population| == 0 || (spots > 0 && nMutations + nCrossovers > spots))
      && (r.Ok? && spots == 0 ==> r.value == population)
      && (r.Ok? && spots > 0 ==>
            |r.value| == |population| + nCrossovers + nMutations + Min(spots - nCrossovers - nMutations, |population|))
      && (r.Ok? ==> r.value[..|population|] == population && |r.value| <= capacity)
  {
    var spots := capacity - |population|;
    if |population| > 0 && spots > 0 {
      var nMutations := OffspringCount(spots, params.mutationPercent);
      var nCrossovers := OffspringCount(spots, params.crossoverPercent);
      BreedLength(population, nCrossovers, nMutations, ops, 0);
    }
  }

  // --------------------------------------------------------------- iterator

  /** One call of `next` past the counter check: evaluate, rank, yield the
      ranked population and breed the next one from its survivors, in a vector
      whose capacity is the ranked population's length (a cloned `Vec`). */
  function Generation<P>(population: seq<Individual<P>>, params: HyperParameters, ops: Operators<P>): (g: Outcome<(seq<Individual<P>>, seq<Individual<P>>)>)
    requires Shuffles(ops)
    ensures g.Ok? ==> EvaluateAll(population, ops.evaluate).Ok? && multiset(g.value.0) == multiset(EvaluateAll(population, ops.evaluate).value)
  {
    match EvaluateAll(population, ops.evaluate)
    case Panic(m) => Panic(m)
    case Ok(evaluated) =>
      var ranked := Rank(evaluated);
      var survivors := ranked[..SurvivorCount(ranked, params.gap)];
      assert IsShuffle(ops.shuffle(|survivors|), |survivors|);
      match VariationOutcome(survivors, |ranked|, params, ops)
      case Panic(m) => Panic(m)
      case Ok(next) => Ok((ranked, next))
  }

  /** Ranking neither adds nor removes individuals, so an evaluated population stays evaluated. */
  lemma RankKeepsEvaluated<P>(population: seq<Individual<P>>)
    requires forall i :: 0 <= i < |population| ==> !IsNotEvaluated(population[i].fitness)
    ensures forall i :: 0 <= i < |population| ==> !IsNotEvaluated(Rank(population)[i].fitness)
  {
    var ranked := Rank(population);
    forall i | 0 <= i < |ranked| ensures !IsNotEvaluated(ranked[i].fitness) {
      assert ranked[i] in multiset(population);
      var j :| 0 <= j < |population| && population[j] == ranked[i];
    }
  }

  /** What one generation guarantees: the yielded population is fully
      evaluated and ranked, the next population starts with the survivors,
      which are all `Valid`, and is never larger than the current one. */
  lemma GenerationStep<P>(population: seq<Individual<P>>, params: HyperParameters, ops: Operators<P>,
                          g: Outcome<(seq<Individual<P>>, seq<Individual<P>>)>)
    requires Shuffles(ops)
    requires g == Generation(population, params, ops)
    ensures match g
      case Panic(_) => true
      case Ok((yielded, next)) =>
        var s := SurvivorCount(yielded, params.gap);
        && |yielded| == |population|
        && (forall i :: 0 <= i < |yielded| ==> !IsNotEvaluated(yielded[i].fitness))
        && Sorting.SortedBy(yielded, Score, AtLeast)
        && 0 < s <= |next| <= |population|
        && next[..s] == yielded[..s]
        && (forall i :: 0 <= i < s ==> next[i].fitness.Valid?)
  {
    match EvaluateAll(population, ops.evaluate)
    case Panic(_) =>
    case Ok(evaluated) =>
      var ranked := Rank(evaluated);
      var s := SurvivorCount(ranked, params.gap);
      var survivors := ranked[..s];
      assert IsShuffle(ops.shuffle(|survivors|), |survivors|);
      RankKeepsEvaluated(evaluated);
      SurvivorsAreValid(ranked, params.gap);
      VariationShape(survivors, |ranked|, params, ops);
  }

  /** `GeneticAlgorithmIter`: the generation counter and the population the next call evaluates. */
  class GeneticAlgorithmIter<P> {
    var generation: nat
    var nextPopulation: seq<Individual<P>>
    const params: HyperParameters

    /** `GeneticAlgorithmIter::new`: generation 0 and a fresh `init_pop` population. */
    constructor (params: HyperParameters, generate: nat -> Individual<P>)
      ensures this.params == params && generation == 0
      ensures nextPopulation == InitPop(params, generate).0
      ensures |nextPopulation| == params.populationSize
    {
      var (population, p) := InitPop(params, generate);
      this.params := p;
      generation := 0;
      nextPopulation := population;
    }

    /** `Iterator::next`: `None` once the counter has passed `n_generations`;
        otherwise one generation, yielding the ranked population and raising
        the counter by one. A panic leaves the iterator as it was. */
    method Next(ops: Operators<P>) returns (r: Outcome<Option<seq<Individual<P>>>>)
      requires Shuffles(ops)
      modifies this
      ensures r == Ok(None) <==> old(generation) > params.nGenerations
      ensures old(generation) <= params.nGenerations ==>
        match Generation(old(nextPopulation), params, ops)
        case Panic(m) => r == Panic(m) && generation == old(generation) && nextPopulation == old(nextPopulation)
        case Ok((yielded, next)) => r == Ok(Some(yielded)) && nextPopulation == next && generation == old(generation) + 1
      ensures old(generation) > params.nGenerations ==> generation == old(generation) && nextPopulation == old(nextPopulation)
    {
      if generation > params.nGenerations {
        return Ok(None);
      }
      var population := nextPopulation;
      var evaluated := EvalFitness(population, ops.evaluate);
      if evaluated.Panic? {
        return Panic(evaluated.message);
      }
      population := Rank(evaluated.value);
      var survivors := Survive(population, params.gap);
      assert IsShuffle(ops.shuffle(|survivors|), |survivors|);
      var varied := Variation(survivors, |population|, params, ops);
      if varied.Panic? {
        return Panic(varied.message);
      }
      nextPopulation := varied.value;
      generation := generation + 1;
      return Ok(Some(population));
    }
  }

  /** Consuming the iterator from generation `g` yields `n_generations + 1 - g`
      populations before `None` (so `n_generations + 1` from a new iterator),
      unless some generation panics. */
  method CountYields<P>(it: GeneticAlgorithmIter<P>, ops: Operators<P>) returns (count: nat, panicked: bool)
    requires Shuffles(ops)
    requires it.generation <= it.params.nGenerations + 1
    modifies it
    ensures !panicked ==> count == it.params.nGenerations + 1 - old(it.generation)
    ensures !panicked ==> it.generation == it.params.nGenerations + 1
  {
    count, panicked := 0, false;
    while true
      invariant it.generation == old(it.generation) + count <= it.params.nGenerations + 1
      invariant !panicked
      decreases it.params.nGenerations + 1 - it.generation
    {
      var r := it.Next(ops);
      if r.Panic? {
        panicked := true;
        return;
      }
      if r.value.None? {
        return;
      }
      count := count + 1;
    }
  }
}

=== FILE: classification.dfy ===
/** Classification fitness (src/extensions/classification.rs): the predicted
    class is the unique best action register, or -1 on a tie, and a program's
    fitness is its share of correct predictions over a data set. Register
    values are reals; `Program::exec`, `Registers::reset` and `get_class` are
    abstract inputs. */
module Classification {
  import opened Wrappers

  /** An `f64` result that may be the quotient 0/0. */
  datatype Float = Finite(value: real) | NaN

  /** `float_ops::max_val` on a non-empty sequence: a value of it that no element exceeds. */
  function MaxVal(s: seq<real>): (m: real)
    requires |s| > 0
    ensures m in s
    ensures forall i :: 0 <= i < |s| ==> s[i] <= m
  {
    if |s| == 1 then s[0]
    else
      var m := MaxVal(s[..|s| - 1]);
      if s[|s| - 1] > m then s[|s| - 1] else m
  }

  /** The indices, in increasing order, at which `s` holds `v` (the
      `enumerate`/`filter`/`collect` pipeline). */
  function IndicesOf(s: seq<real>, v: real): (ix: seq<nat>)
    ensures forall k :: 0 <= k < |ix| ==> ix[k] < |s| && s[ix[k]] == v
    ensures forall a, b :: 0 <= a < b < |ix| ==> ix[a] < ix[b]
  {
    if |s| == 0 then []
    else IndicesOf(s[..|s| - 1], v) + (if s[|s| - 1] == v then [|s| - 1] else [])
  }

  /** No position holding `v` is missed. */
  lemma {:induction false} IndicesOfComplete(s: seq<real>, v: real, i: nat)
    requires i < |s| && s[i] == v
    ensures i in IndicesOf(s, v)
  {
    var last := |s| - 1;
    if i < last {
      assert s[..last][i] == v;
      IndicesOfComplete(s[..last], v, i);
    }
  }

  /** No value of `s` exceeds `s[i]`. */
  predicate IsMaxAt(s: seq<real>, i: nat)
    requires i < |s|
  {
    forall k :: 0 <= k < |s| ==> s[k] <= s[i]
  }

  /** Two positions of `s` share its maximum. */
  ghost predicate SharedMax(s: seq<real>) {
    exists i, j :: 0 <= i < j < |s| && s[i] == s[j] && IsMaxAt(s, i)
  }

  /** Every other value of `s` is strictly below `s[r]`. */
  predicate UniqueMaxAt(s: seq<real>, r: nat)
    requires r < |s|
  {
    forall j :: 0 <= j < |s| && j != r ==> s[j] < s[r]
  }

  /** `ClassificationParameters::argmax`: only the first `nActionRegisters`
      registers take part; the result is -1 on a tie for the maximum and
      otherwise the index of the maximal register (`ArgmaxSpec`). The slice
      and `max_val(..).expect` panic unless `0 < nActionRegisters <= |registers|`. */
  function Argmax(registers: seq<real>, nActionRegisters: nat): (r: int)
    requires 0 < nActionRegisters <= |registers|
    ensures -1 <= r < nActionRegisters
  {
    var actionRegisters := registers[..nActionRegisters];
    var indices := IndicesOf(actionRegisters, MaxVal(actionRegisters));
    IndicesOfMaxNonEmpty(actionRegisters);
    if |indices| > 1 then -1 else indices[0]
  }

  /** The result is -1 exactly when two action registers share the maximum,
      and otherwise the index of the one action register above all others. */
  lemma ArgmaxSpec(registers: seq<real>, nActionRegisters: nat)
    requires 0 < nActionRegisters <= |registers|
    ensures var r := Argmax(registers, nActionRegisters);
      && (r == -1 <==> SharedMax(registers[..nActionRegisters]))
      && (r != -1 ==> 0 <= r < nActionRegisters && UniqueMaxAt(registers[..nActionRegisters], r))
  {
    var s := registers[..nActionRegisters];
    IndicesOfMaxNonEmpty(s);
    if |IndicesOf(s, MaxVal(s))| > 1 {
      IndicesOfMaxShared(s);
    } else {
      IndicesOfMaxUnique(s);
    }
  }

  /** The maximum occurs somewhere. */
  lemma IndicesOfMaxNonEmpty(s: seq<real>)
    requires 0 < |s|
    ensures |IndicesOf(s, MaxVal(s))| > 0
  {
    var w :| 0 <= w < |s| && s[w] == MaxVal(s);
    IndicesOfComplete(s, MaxVal(s), w);
  }

  /** Two positions holding the maximum mean the maximum is shared. */
  lemma IndicesOfMaxShared(s: seq<real>)
    requires 0 < |s| && |IndicesOf(s, MaxVal(s))| > 1
    ensures SharedMax(s)
  {
    var indices := IndicesOf(s, MaxVal(s));
    assert IsMaxAt(s, indices[0]);
    assert s[indices[0]] == s[indices[1]];
  }

  /** One position holding the maximum means it is strictly above every
      other value, so the maximum is not shared. */
  lemma IndicesOfMaxUnique(s: seq<real>)
    requires 0 < |s| && |IndicesOf(s, MaxVal(s))| == 1
    ensures var r := IndicesOf(s, MaxVal(s))[0];
      r < |s| && UniqueMaxAt(s, r) && !SharedMax(s)
  {
    var maxValue := MaxVal(s);
    var indices := IndicesOf(s, maxValue);
    var r := indices[0];
    assert indices == [r];
    forall j | 0 <= j < |s| && j != r ensures s[j] < s[r] {
      if s[j] == maxValue {
        IndicesOfComplete(s, maxValue, j);
      }
    }
    forall i, j | 0 <= i < j < |s| && s[i] == s[j] ensures !IsMaxAt(s, i) {
      assert s[i] < s[r];
    }
  }

  /** `c as i32` for a `usize` class `c`: its low 32 bits read in two's complement. */
  function AsI32(c: nat): (r: int)
    ensures -0x8000_0000 <= r < 0x8000_0000
    ensures (c - r) % 0x1_0000_0000 == 0
    ensures c < 0x8000_0000 ==> r == c
  {
    var low := c % 0x1_0000_0000;
    if low < 0x8000_0000 then low else low - 0x1_0000_0000
  }

  /** Whether input `x`, run from register state `state`, is classified
      correctly: the predicted class equals the input's class cast to `i32`.
      So a class whose cast is -1 is matched exactly by a tie, a class whose
      cast is an action register exactly by that register holding the unique
      maximum, and any other class never. */
  predicate Correct<X(!new)>(state: seq<real>, x: X, nActionRegisters: nat, exec: (seq<real>, X) -> seq<real>, getClass: X -> nat)
    requires 0 < nActionRegisters <= |state|
    requires forall s, y :: |exec(s, y)| == |s|
    ensures var registers, c := exec(state, x)[..nActionRegisters], AsI32(getClass(x));
      Correct(state, x, nActionRegisters, exec, getClass) <==>
        || (c == -1 && SharedMax(registers))
        || (0 <= c < nActionRegisters && UniqueMaxAt(registers, c))
  {
    ArgmaxSpec(exec(state, x), nActionRegisters);
    Argmax(exec(state, x), nActionRegisters) == AsI32(getClass(x))
  }

  /** The number of correct predictions over `inputs` when the first one runs
      from `start` and every later one from the reset state `reset`. */
  function NCorrect<X(!new)>(start: seq<real>, reset: seq<real>, inputs: seq<X>, nActionRegisters: nat,
                       exec: (seq<real>, X) -> seq<real>, getClass: X -> nat): (n: nat)
    requires 0 < nActionRegisters <= |start| && |reset| == |start|
    requires forall s, y :: |exec(s, y)| == |s|
    ensures n <= |inputs|
    decreases |inputs|
  {
    if |inputs| == 0 then 0
    else
      (if Correct(start, inputs[0], nActionRegisters, exec, getClass) then 1 else 0)
      + NCorrect(reset, reset, inputs[1..], nActionRegisters, exec, getClass)
  }

  /** The count from input `k` on is the first of them, judged from `start`,
      plus the count over the rest from the reset state. */
  lemma NCorrectStep<X(!new)>(start: seq<real>, reset: seq<real>, inputs: seq<X>, k: nat, nActionRegisters: nat,
                              exec: (seq<real>, X) -> seq<real>, getClass: X -> nat)
    requires 0 < nActionRegisters <= |start| && |reset| == |start|
    requires forall s, y :: |exec(s, y)| == |s|
    requires k < |inputs|
    ensures NCorrect(start, reset, inputs[k..], nActionRegisters, exec, getClass)
         == (if Correct(start, inputs[k], nActionRegisters, exec, getClass) then 1 else 0)
            + NCorrect(reset, reset, inputs[k + 1..], nActionRegisters, exec, getClass)
  {
    assert inputs[k..][0] == inputs[k] && inputs[k..][1..] == inputs[k + 1..];
  }

  /** Because every prediction after the first starts from the reset state,
      the count over a data set starting from the reset state is the sum of
      the counts over any split of it. */
  lemma {:induction false} NCorrectSplits<X(!new)>(reset: seq<real>, a: seq<X>, b: seq<X>, nActionRegisters: nat,
                                             exec: (seq<real>, X) -> seq<real>, getClass: X -> nat)
    requires 0 < nActionRegisters <= |reset|
    requires forall s, y :: |exec(s, y)| == |s|
    ensures NCorrect(reset, reset, a + b, nActionRegisters, exec, getClass)
         == NCorrect(reset, reset, a, nActionRegisters, exec, getClass) + NCorrect(reset, reset, b, nActionRegisters, exec, getClass)
  {
    if |a| > 0 {
      assert (a + b)[1..] == a[1..] + b;
      assert (a + b)[0] == a[0];
      NCorrectSplits(reset, a[1..], b, nActionRegisters, exec, getClass);
    } else {
      assert a + b == b;
    }
  }

  /** `n_correct / inputs.len()`: a fraction in `[0, 1]` when there are inputs, 0/0 otherwise. */
  function Accuracy(nCorrect: nat, nInputs: nat): (f: Float)
    requires nCorrect <= nInputs
    ensures f.NaN? <==> nInputs == 0
    ensures f.Finite? ==> 0.0 <= f.value <= 1.0
    ensures f.Finite? ==> (f.value == 1.0 <==> nCorrect == nInputs) && (f.value == 0.0 <==> nCorrect == 0)
  {
    if nInputs == 0 then NaN
    else
      var share := nCorrect as real / nInputs as real;
      assert share * nInputs as real == nCorrect as real;
      Finite(share)
  }

  /** A program seen by the classification fitness: its registers and its stored fitness. */
  class Program<X(!new)> {
    var registers: seq<real>
    var fitness: Option<Float>

    /** A stored fitness is an accuracy: NaN or a fraction in `[0, 1]`. */
    ghost predicate Valid()
      reads this
    {
      fitness.Some? && fitness.value.Finite? ==> 0.0 <= fitness.value.value <= 1.0
    }

    constructor (registers: seq<real>)
      ensures this.registers == registers && fitness == None
      ensures Valid()
    {
      this.registers, fitness := registers, None;
    }

    /** `eval_fitness`: runs every input, counts the correct predictions,
        resets the registers after each input, and stores and returns the
        accuracy. */
    method EvalFitness(inputs: seq<X>, nActionRegisters: nat, exec: (seq<real>, X) -> seq<real>,
                       getClass: X -> nat, reset: seq<real>) returns (f: Float)
      requires 0 < nActionRegisters <= |registers| && |reset| == |registers|
      requires forall s, y :: |exec(s, y)| == |s|
      modifies this
      ensures f == Accuracy(NCorrect(old(registers), reset, inputs, nActionRegisters, exec, getClass), |inputs|)
      ensures |inputs| > 0 ==> f.Finite? && 0.0 <= f.value <= 1.0
      ensures fitness == Some(f) && Valid()
      ensures registers == if |inputs| == 0 then old(registers) else reset
    {
      var nCorrect := CountCorrect(inputs, nActionRegisters, exec, getClass, reset);
      f := Accuracy(nCorrect, |inputs|);
      fitness := Some(f);
    }

    /** The loop of `eval_fitness`: the number of inputs classified
        correctly, the first from the current registers and every later one
        from the reset state, which the registers are left in. */
    method CountCorrect(inputs: seq<X>, nActionRegisters: nat, exec: (seq<real>, X) -> seq<real>,
                        getClass: X -> nat, reset: seq<real>) returns (nCorrect: nat)
      requires 0 < nActionRegisters <= |registers| && |reset| == |registers|
      requires forall s, y :: |exec(s, y)| == |s|
      modifies this
      ensures nCorrect == NCorrect(old(registers), reset, inputs, nActionRegisters, exec, getClass)
      ensures registers == (if |inputs| == 0 then old(registers) else reset) && fitness == old(fitness)
    {
      ghost var start := registers;
      ghost var total := NCorrect(start, reset, inputs, nActionRegisters, exec, getClass);
      nCorrect := 0;
      var k := 0;
      while k < |inputs|
        invariant k <= |inputs|
        invariant registers == (if k == 0 then start else reset) && fitness == old(fitness)
        invariant nCorrect + NCorrect(registers, reset, inputs[k..], nActionRegisters, exec, getClass) == total
      {
        NCorrectStep(registers, reset, inputs, k, nActionRegisters, exec, getClass);
        var correct := Classify(inputs[k], nActionRegisters, exec, getClass, reset);
        if correct {
          nCorrect := nCorrect + 1;
        }
        k := k + 1;
      }
      assert inputs[k..] == [];
    }

    /** One iteration of `eval_fitness`: run `x` on the registers, compare
        the predicted class with the input's class, then reset the registers. */
    method Classify(x: X, nActionRegisters: nat, exec: (seq<real>, X) -> seq<real>,
                    getClass: X -> nat, reset: seq<real>) returns (correct: bool)
      requires 0 < nActionRegisters <= |registers| && |reset| == |registers|
      requires forall s, y :: |exec(s, y)| == |s|
      modifies this
      ensures correct == Correct(old(registers), x, nActionRegisters, exec, getClass)
      ensures registers == reset && fitness == old(fitness)
    {
      registers := exec(registers, x);
      var predictedClass := Argmax(registers, nActionRegisters);
      var correctClass := AsI32(getClass(x));
      correct := predictedClass == correctClass;
      registers := reset;
    }

    /** `get_fitness`: `None` before any evaluation, otherwise the stored
        accuracy, which is NaN or a fraction in `[0, 1]`. */
    function GetFitness(): (f: Option<Float>)
      reads this
      requires Valid()
      ensures f.Some? && f.value.Finite? ==> 0.0 <= f.value.value <= 1.0
    {
      fitness
    }
  }
}

=== FILE: fitness_engine.dfy ===
/** The fitness score of an individual and its hand-written ordering
    (src/core/engines/fitness_engine.rs). Scores are reals: NaN, and with it a
    `partial_cmp` that returns no ordering, is not modelled. */
module FitnessEngine {
  import Sorting

  /** Rust's `std::cmp::Ordering`. */
  datatype Ordering = Less | Equal | Greater {
    /** The ordering seen from the other side. */
    function Reverse(): Ordering {
      match this
      case Less => Greater
      case Equal => Equal
      case Greater => Less
    }
  }

  datatype FitnessScore = Valid(value: real) | OutOfBounds | NotEvaluated

  /** `reset` overwrites any score with `NotEvaluated`. */
  function Reset(s: FitnessScore): (r: FitnessScore)
    ensures IsNotEvaluated(r) && !IsInvalid(r)
  {
    NotEvaluated
  }

  function PartialCmp(a: FitnessScore, b: FitnessScore): (o: Ordering)
    ensures o == Greater <==> a.Valid? && (b.Valid? ==> a.value > b.value)
    ensures o == Less <==> b.Valid? && (a.Valid? ==> a.value < b.value)
  {
    match (a, b)
    case (Valid(x), Valid(y)) => if x < y then Less else if x > y then Greater else Equal
    case (Valid(_), _) => Greater
    case (_, Valid(_)) => Less
    case _ => Equal
  }

  /** `is_not_evaluated`: true of `NotEvaluated` alone. */
  predicate IsNotEvaluated(s: FitnessScore)
    ensures IsNotEvaluated(s) <==> s == NotEvaluated
  {
    match s
    case NotEvaluated => true
    case _ => false
  }

  /** `is_invalid`: true of `OutOfBounds` alone, so never of a valid or an unevaluated score. */
  predicate IsInvalid(s: FitnessScore)
    ensures IsInvalid(s) <==> s == OutOfBounds
  {
    match s
    case Valid(_) | NotEvaluated => false
    case _ => true
  }

  function UnwrapOr(s: FitnessScore, default: real): (r: real)
    ensures s.Valid? ==> r == s.value
    ensures !s.Valid? ==> r == default
  {
    match s
    case Valid(v) => v
    case _ => default
  }

  /** `unwrap` is `unreachable!()` on anything but `Valid`. */
  function Unwrap(s: FitnessScore): (r: real)
    requires s.Valid?
    ensures forall d: real :: r == UnwrapOr(s, d)
  {
    match s
    case Valid(v) => v
  }

  /** `a >= b` in the ordering `partial_cmp` defines. */
  predicate AtLeast(a: FitnessScore, b: FitnessScore) {
    PartialCmp(a, b) != Less
  }

  /** An independent description of the ordering: a score is ranked by its tier
      (1 for `Valid`, 0 otherwise) and then, inside the valid tier, by its value. */
  function Tier(s: FitnessScore): nat {
    if s.Valid? then 1 else 0
  }

  function Level(s: FitnessScore): real {
    if s.Valid? then s.value else 0.0
  }

  function LexCmp(a: FitnessScore, b: FitnessScore): Ordering {
    if Tier(a) < Tier(b) then Less
    else if Tier(a) > Tier(b) then Greater
    else if Level(a) < Level(b) then Less
    else if Level(a) > Level(b) then Greater
    else Equal
  }

  /** `partial_cmp` is exactly the lexicographic comparison of (tier, value). */
  lemma PartialCmpIsLexicographic(a: FitnessScore, b: FitnessScore)
    ensures PartialCmp(a, b) == LexCmp(a, b)
  {
    match (a, b)
    case (Valid(x), Valid(y)) =>
    case (Valid(_), _) =>
    case (_, Valid(_)) =>
    case _ =>
  }

  /** Swapping the operands reverses the result; every score equals itself. */
  lemma PartialCmpAntisymmetric(a: FitnessScore, b: FitnessScore)
    ensures PartialCmp(b, a) == PartialCmp(a, b).Reverse()
    ensures PartialCmp(a, a) == Equal
  {
    match (a, b)
    case (Valid(x), Valid(y)) =>
    case (Valid(_), _) =>
    case (_, Valid(_)) =>
    case _ =>
  }

  /** A valid score beats both non-valid ones, and the two non-valid ones tie. */
  lemma ValidBeatsInvalid(v: real)
    ensures PartialCmp(Valid(v), OutOfBounds) == Greater && PartialCmp(OutOfBounds, Valid(v)) == Less
    ensures PartialCmp(Valid(v), NotEvaluated) == Greater && PartialCmp(NotEvaluated, Valid(v)) == Less
    ensures PartialCmp(OutOfBounds, NotEvaluated) == Equal && PartialCmp(NotEvaluated, OutOfBounds) == Equal
  {
  }

  /** `OutOfBounds` and `NotEvaluated` compare `Equal` although the derived `==` tells them apart. */
  lemma EqualIsCoarserThanEquality()
    ensures PartialCmp(OutOfBounds, NotEvaluated) == Equal && OutOfBounds != NotEvaluated
    ensures forall a, b :: a == b ==> PartialCmp(a, b) == Equal
  {
    forall a, b | a == b ensures PartialCmp(a, b) == Equal {
      PartialCmpAntisymmetric(a, b);
    }
  }

  /** The two predicates pick out exactly the two non-valid variants, never both at once. */
  lemma PredicatesPartitionNonValid(s: FitnessScore)
    ensures IsNotEvaluated(s) <==> s == NotEvaluated
    ensures IsInvalid(s) <==> s == OutOfBounds
    ensures !(IsNotEvaluated(s) && IsInvalid(s))
    ensures IsNotEvaluated(s) || IsInvalid(s) <==> !s.Valid?
  {
  }

  lemma ResetIdempotent(s: FitnessScore)
    ensures Reset(Reset(s)) == Reset(s) == NotEvaluated
  {
  }

  /** `AtLeast` is a total preorder, so sorting by it is well defined. */
  lemma {:induction false} AtLeastIsTotalPreorder()
    ensures Sorting.TotalPreorder(AtLeast)
  {
    forall a, b ensures AtLeast(a, b) || AtLeast(b, a) {
      PartialCmpAntisymmetric(a, b);
    }
    forall a, b, c | AtLeast(a, b) && AtLeast(b, c) ensures AtLeast(a, c) {
      PartialCmpIsLexicographic(a, b);
      PartialCmpIsLexicographic(b, c);
      PartialCmpIsLexicographic(a, c);
    }
  }
}

=== FILE: instructions.dfy ===
/** Two-point crossover on instruction lists (src/core/instructions.rs).
    The random cut points become inputs constrained to the ranges they are
    sampled from. */
module Instructions {
  import opened Wrappers

  /** A sampled segment: `start` in `[0, len)`, and `end` absent exactly when
      `start` is the last index, otherwise in `(start, len)`. */
  datatype Cut = Cut(start: nat, end: Option<nat>) {

    ghost predicate ValidFor(len: nat) {
      && start < len
      && (end.None? <==> start == len - 1)
      && (end.Some? ==> start < end.value < len)
    }

    /** The exclusive upper bound of the segment: `end`, or the length when there is none. */
    function Hi(len: nat): (hi: nat)
      requires ValidFor(len)
      ensures start < hi <= len
      ensures end.None? <==> hi == len
    {
      match end
      case None => len
      case Some(e) => e
    }
  }

  /** `Vec::splice(lo..hi, chunk)`: replaces `s[lo..hi]` by `chunk`. */
  function Splice<T>(s: seq<T>, lo: nat, hi: nat, chunk: seq<T>): (r: seq<T>)
    requires lo <= hi <= |s|
    ensures |r| == |s| - (hi - lo) + |chunk|
    ensures r[..lo] == s[..lo] && r[lo..lo + |chunk|] == chunk && r[lo + |chunk|..] == s[hi..]
  {
    s[..lo] + chunk + s[hi..]
  }

  /** The pair of children the crossover produces. */
  function Crossover<T>(a: seq<T>, b: seq<T>, ca: Cut, cb: Cut): (children: (seq<T>, seq<T>))
    requires ca.ValidFor(|a|) && cb.ValidFor(|b|)
    ensures |children.0| == |a| - (ca.Hi(|a|) - ca.start) + (cb.Hi(|b|) - cb.start)
    ensures |children.1| == |b| - (cb.Hi(|b|) - cb.start) + (ca.Hi(|a|) - ca.start)
  {
    var aHi, bHi := ca.Hi(|a|), cb.Hi(|b|);
    (Splice(a, ca.start, aHi, b[cb.start..bHi]), Splice(b, cb.start, bHi, a[ca.start..aHi]))
  }

  /** `two_point_crossover`: clone both parents, copy out both segments, then
      splice each parent's clone with the other parent's segment. */
  method TwoPointCrossover<T>(a: seq<T>, b: seq<T>, ca: Cut, cb: Cut) returns (childA: seq<T>, childB: seq<T>)
    requires |a| > 0 && |b| > 0
    requires ca.ValidFor(|a|) && cb.ValidFor(|b|)
    ensures (childA, childB) == Crossover(a, b, ca, cb)
    ensures childA == a[..ca.start] + b[cb.start..cb.Hi(|b|)] + a[ca.Hi(|a|)..]
    ensures childB == b[..cb.start] + a[ca.start..ca.Hi(|a|)] + b[cb.Hi(|b|)..]
  {
    var instructionsA := a;
    var instructionsB := b;
    var aChunk := match ca.end
      case None => instructionsA[ca.start..]
      case Some(e) => instructionsA[ca.start..e];
    var bChunk := match cb.end
      case None => instructionsB[cb.start..]
      case Some(e) => instructionsB[cb.start..e];
    instructionsA := match ca.end
      case Some(e) => Splice(instructionsA, ca.start, e, bChunk)
      case None => Splice(instructionsA, ca.start, |instructionsA|, bChunk);
    instructionsB := match cb.end
      case Some(e) => Splice(instructionsB, cb.start, e, aChunk)
      case None => Splice(instructionsB, cb.start, |instructionsB|, aChunk);
    childA, childB := instructionsA, instructionsB;
    assert aChunk == a[ca.start..ca.Hi(|a|)] && bChunk == b[cb.start..cb.Hi(|b|)];
  }

  /** Both children are non-empty, and the pair together has as many
      instructions as the parents had. */
  lemma CrossoverConservesLength<T>(a: seq<T>, b: seq<T>, ca: Cut, cb: Cut)
    requires ca.ValidFor(|a|) && cb.ValidFor(|b|)
    ensures var (x, y) := Crossover(a, b, ca, cb);
      && |x| > 0 && |y| > 0
      && |x| + |y| == |a| + |b|
      && |x| <= |a| + |b| && |y| <= |a| + |b|
  {
  }

  /** No instruction is created or lost: the pair is a redistribution of the parents. */
  lemma CrossoverConservesInstructions<T>(a: seq<T>, b: seq<T>, ca: Cut, cb: Cut)
    requires ca.ValidFor(|a|) && cb.ValidFor(|b|)
    ensures var (x, y) := Crossover(a, b, ca, cb);
      multiset(x) + multiset(y) == multiset(a) + multiset(b)
  {
    var aHi, bHi := ca.Hi(|a|), cb.Hi(|b|);
    MultisetOfThreeParts(a, ca.start, aHi);
    MultisetOfThreeParts(b, cb.start, bHi);
  }

  /** Cutting a sequence in three parts keeps its multiset. */
  lemma MultisetOfThreeParts<T>(s: seq<T>, i: nat, j: nat)
    requires i <= j <= |s|
    ensures multiset(s) == multiset(s[..i]) + multiset(s[i..j]) + multiset(s[j..])
  {
    assert s == s[..i] + s[i..j] + s[j..];
  }

  /** Each child starts with its own parent's instructions up to the cut and,
      when the segment stops short of the end, ends with the parent's tail. */
  lemma CrossoverKeepsParentEnds<T>(a: seq<T>, b: seq<T>, ca: Cut, cb: Cut)
    requires ca.ValidFor(|a|) && cb.ValidFor(|b|)
    ensures var (x, y) := Crossover(a, b, ca, cb);
      && x[..ca.start] == a[..ca.start]
      && y[..cb.start] == b[..cb.start]
      && (ca.end.Some? ==> |a[ca.end.value..]| > 0 && x[|x| - |a[ca.end.value..]|..] == a[ca.end.value..])
      && (cb.end.Some? ==> |b[cb.end.value..]| > 0 && y[|y| - |b[cb.end.value..]|..] == b[cb.end.value..])
  {
  }

  /** Crossing a child pair's segments back at the matching positions restores
      the parents: the exchange is undone by exchanging again. */
  lemma {:induction false} CrossoverSwapBack<T>(a: seq<T>, b: seq<T>, ca: Cut, cb: Cut)
    requires ca.ValidFor(|a|) && cb.ValidFor(|b|)
    ensures var (x, y) := Crossover(a, b, ca, cb);
      var aLen, bLen := ca.Hi(|a|) - ca.start, cb.Hi(|b|) - cb.start;
      && Splice(x, ca.start, ca.start + bLen, y[cb.start..cb.start + aLen]) == a
      && Splice(y, cb.start, cb.start + aLen, x[ca.start..ca.start + bLen]) == b
  {
    var aHi, bHi := ca.Hi(|a|), cb.Hi(|b|);
    var (x, y) := Crossover(a, b, ca, cb);
    assert y[cb.start..cb.start + (aHi - ca.start)] == a[ca.start..aHi];
    assert x[ca.start..ca.start + (bHi - cb.start)] == b[cb.start..bHi];
    assert a == a[..ca.start] + a[ca.start..aHi] + a[aHi..];
    assert b == b[..cb.start] + b[cb.start..bHi] + b[bHi..];
  }
}

=== FILE: macros.dfy ===
/** The two `executable!` forms (src/utils/macros.rs): an operation applied to
    every register, with a constant or with the matching data value, in place;
    and the `executables!` table of named operations. */
module Macros {
  /** `executable!(name, op, val)`: `registers[i] := registers[i] op val` for
      every index. `assert_eq!` demands equal lengths; the borrow rules keep
      `registers` and `data` apart. The same slice is returned. */
  method ExecutableScalar(registers: array<real>, data: array<real>, op: (real, real) -> real, val: real)
    returns (r: array<real>)
    requires registers.Length == data.Length
    requires registers != data
    modifies registers
    ensures r == registers
    ensures forall i :: 0 <= i < registers.Length ==> registers[i] == op(old(registers[i]), val)
    ensures data[..] == old(data[..])
  {
    for index := 0 to registers.Length
      invariant forall i :: 0 <= i < index ==> registers[i] == op(old(registers[i]), val)
      invariant forall i :: index <= i < registers.Length ==> registers[i] == old(registers[i])
    {
      registers[index] := op(registers[index], val);
    }
    return registers;
  }

  /** `executable!(name, op)`: `registers[i] := registers[i] op data[i]` for every index. */
  method ExecutableElementWise(registers: array<real>, data: array<real>, op: (real, real) -> real)
    returns (r: array<real>)
    requires registers.Length == data.Length
    requires registers != data
    modifies registers
    ensures r == registers
    ensures forall i :: 0 <= i < registers.Length ==> registers[i] == op(old(registers[i]), data[i])
    ensures data[..] == old(data[..])
  {
    for index := 0 to registers.Length
      invariant forall i :: 0 <= i < index ==> registers[i] == op(old(registers[i]), data[i])
      invariant forall i :: index <= i < registers.Length ==> registers[i] == old(registers[i])
    {
      registers[index] := op(registers[index], data[index]);
    }
    return registers;
  }

  /** An entry of an `executables!` table: the operation's path as text and the operation. */
  datatype AnyExecutable<F> = AnyExecutable(name: string, executable: F)

  /** `executables!(NAME, f1, f2, ...)`: one entry per listed path, in the
      order listed, each named by its path. */
  function Executables<F>(paths: seq<string>, resolve: string -> F): (table: seq<AnyExecutable<F>>)
    ensures |table| == |paths|
    ensures forall i :: 0 <= i < |paths| ==> table[i].name == paths[i] && table[i].executable == resolve(paths[i])
  {
    if |paths| == 0 then []
    else [AnyExecutable(paths[0], resolve(paths[0]))] + Executables(paths[1..], resolve)
  }
}

=== FILE: q_learning.dfy ===
/** Q-learning on top of linear programs (src/extensions/q_learning.rs): the
    Q-table, its epsilon-greedy action choice and update rule, and the
    fitness evaluation that runs one episode per initial state and keeps the
    median run. The environment, `Program::exec`, `Registers::all_argmax` and
    every random draw are abstract inputs. Values are reals. */
module QLearning {
  import opened Wrappers
  import FitnessEngine
  import Sorting

  /** Step size, discount and exploration rate. */
  datatype QConsts = QConsts(alpha: real, gamma: real, epsilon: real)

  /** `QConsts::default`: constants a learner can use as they are, with an
      exploration rate inside the `[0, 1]` range `eval` insists on. */
  function DefaultConsts(): (c: QConsts)
    ensures 0.0 <= c.epsilon <= 1.0
    ensures 0.0 < c.alpha <= 1.0 && 0.0 <= c.gamma < 1.0
  {
    QConsts(0.25, 0.125, 0.05)
  }

  datatype ActionRegisterPair = ActionRegisterPair(action: nat, register: nat)

  /** One row per register, one column per action. */
  type Table = seq<seq<real>>

  ghost predicate Shaped(t: Table, nRegisters: nat, nActions: nat) {
    |t| == nRegisters && forall r :: 0 <= r < |t| ==> |t[r]| == nActions
  }

  /** `vec![vec![0.; n_actions]; n_registers]`. */
  function Zeros(nRegisters: nat, nActions: nat): (t: Table)
    ensures Shaped(t, nRegisters, nActions)
    ensures forall r, a :: 0 <= r < nRegisters && 0 <= a < nActions ==> t[r][a] == 0.0
  {
    seq(nRegisters, _ => seq(nActions, _ => 0.0))
  }

  /** An index of a largest value (the model takes the first one). */
  function ArgMax(row: seq<real>): (i: nat)
    requires |row| > 0
    ensures i < |row|
    ensures forall j :: 0 <= j < |row| ==> row[j] <= row[i]
  {
    if |row| == 1 then 0
    else
      var i := ArgMax(row[..|row| - 1]);
      if row[|row| - 1] > row[i] then |row| - 1 else i
  }

  /** The inputs of one `eval` call that the model does not compute: the
      winning registers of the program's registers (`all_argmax`), which of
      them `choose` picks, the uniform sample `prob` and the random action. */
  datatype Draw = Draw(winners: Option<seq<nat>>, pick: nat, prob: real, randomAction: nat)

  /** The ranges those inputs come from: a winner list is non-empty, the
      picked winner names a row of the table, `prob` lies in `[0, 1]` and the
      random action is a column. */
  ghost predicate ValidDraw(d: Draw, nRegisters: nat, nActions: nat) {
    && 0.0 <= d.prob <= 1.0
    && (d.winners.Some? ==>
          && 0 < |d.winners.value|
          && d.pick < |d.winners.value|
          && d.winners.value[d.pick] < nRegisters
          && d.randomAction < nActions)
  }

  /** `QTable::eval` on a table value (`EvalActionSpec` says what it picks).
      The `[0, 1]` check on `epsilon` only runs once a register has won. */
  function EvalAction(t: Table, nRegisters: nat, nActions: nat, consts: QConsts, d: Draw): (r: Option<ActionRegisterPair>)
    requires Shaped(t, nRegisters, nActions) && ValidDraw(d, nRegisters, nActions)
    requires d.winners.Some? ==> 0.0 <= consts.epsilon <= 1.0
    ensures r.None? <==> d.winners.None?
    ensures r.Some? ==> r.value.register < nRegisters && r.value.action < nActions
  {
    match d.winners
    case None => None
    case Some(registers) =>
      var register := registers[d.pick];
      var action := if d.prob < consts.epsilon then d.randomAction else ArgMax(t[register]);
      Some(ActionRegisterPair(action, register))
  }

  /** No pair without a winning register; otherwise the register `choose`
      picked, with a random action when `prob < epsilon` and the row's best
      action otherwise. */
  lemma EvalActionSpec(t: Table, nRegisters: nat, nActions: nat, consts: QConsts, d: Draw)
    requires Shaped(t, nRegisters, nActions) && ValidDraw(d, nRegisters, nActions)
    requires d.winners.Some? ==> 0.0 <= consts.epsilon <= 1.0
    ensures var r := EvalAction(t, nRegisters, nActions, consts, d);
      && (r.None? <==> d.winners.None?)
      && (r.Some? ==> r.value.register == d.winners.value[d.pick])
      && (r.Some? && d.prob < consts.epsilon ==> r.value.action == d.randomAction)
      && (r.Some? && d.prob >= consts.epsilon ==>
            forall a :: 0 <= a < nActions ==> t[r.value.register][a] <= t[r.value.register][r.value.action])
  {
  }

  /** `QTable::update` on a table value. The value used for the next state is
      the INDEX of the best action in the next register's row, as a number. */
  function UpdatedTable(t: Table, nRegisters: nat, nActions: nat, consts: QConsts,
                        cur: ActionRegisterPair, reward: real, next: ActionRegisterPair): (u: Table)
    requires Shaped(t, nRegisters, nActions)
    requires cur.register < nRegisters && cur.action < nActions && next.register < nRegisters
    ensures Shaped(u, nRegisters, nActions)
  {
    var q := t[cur.register][cur.action];
    var nextQ := ArgMax(t[next.register]) as real;
    t[cur.register := t[cur.register][cur.action := q + consts.alpha * (reward + consts.gamma * nextQ - q)]]
  }

  /** The update moves the current cell by `alpha * (reward + gamma * next - current)`
      and leaves every other cell alone. */
  lemma UpdatedTableSpec(t: Table, nRegisters: nat, nActions: nat, consts: QConsts,
                         cur: ActionRegisterPair, reward: real, next: ActionRegisterPair)
    requires Shaped(t, nRegisters, nActions)
    requires cur.register < nRegisters && cur.action < nActions && next.register < nRegisters
    ensures var u := UpdatedTable(t, nRegisters, nActions, consts, cur, reward, next);
      && (forall r, a :: 0 <= r < nRegisters && 0 <= a < nActions && (r != cur.register || a != cur.action) ==> u[r][a] == t[r][a])
      && var q := t[cur.register][cur.action];
         u[cur.register][cur.action] == q + consts.alpha * (reward + consts.gamma * (ArgMax(t[next.register]) as real) - q)
  {
  }

  /** The Q-table: `table` is the one part that changes in place. */
  class QTable {
    var table: Table
    const nActions: nat
    const nRegisters: nat
    const consts: QConsts

    ghost predicate Valid()
      reads this
    {
      Shaped(table, nRegisters, nActions)
    }

    /** `QTable::new`: `n_registers` rows of `n_actions` zeros. */
    constructor (nActions: nat, nRegisters: nat, consts: QConsts)
      ensures Valid() && table == Zeros(nRegisters, nActions)
      ensures this.nActions == nActions && this.nRegisters == nRegisters && this.consts == consts
    {
      this.nActions, this.nRegisters, this.consts := nActions, nRegisters, consts;
      table := Zeros(nRegisters, nActions);
    }

    /** A table holding the given values (what `clone` and a move produce). */
    constructor WithTable(nActions: nat, nRegisters: nat, consts: QConsts, table: Table)
      requires Shaped(table, nRegisters, nActions)
      ensures Valid() && this.table == table
      ensures this.nActions == nActions && this.nRegisters == nRegisters && this.consts == consts
    {
      this.nActions, this.nRegisters, this.consts := nActions, nRegisters, consts;
      this.table := table;
    }

    /** `duplicate_new`: same dimensions and constants, all values zero. */
    method DuplicateNew() returns (t: QTable)
      ensures fresh(t) && t.Valid() && t.table == Zeros(nRegisters, nActions)
      ensures t.nActions == nActions && t.nRegisters == nRegisters && t.consts == consts
    {
      t := new QTable(nActions, nRegisters, consts);
    }

    method Clone() returns (t: QTable)
      requires Valid()
      ensures fresh(t) && t.Valid() && t.table == table
      ensures t.nActions == nActions && t.nRegisters == nRegisters && t.consts == consts
    {
      t := new QTable.WithTable(nActions, nRegisters, consts, table);
    }

    /** `action_argmax`: panics on a register outside the table or an empty
      row; otherwise a column holding the row's largest value. */
    function ActionArgmax(register: nat): (a: nat)
      reads this
      requires Valid() && register < nRegisters && nActions > 0
      ensures a < nActions
      ensures forall j :: 0 <= j < nActions ==> table[register][j] <= table[register][a]
    {
      ArgMax(table[register])
    }

    /** `eval`: no pair without a winning register; otherwise a pair inside
        the table (`EvalActionSpec` says which). */
    function Eval(d: Draw): (r: Option<ActionRegisterPair>)
      reads this
      requires Valid() && ValidDraw(d, nRegisters, nActions)
      requires d.winners.Some? ==> 0.0 <= consts.epsilon <= 1.0
      ensures r.None? <==> d.winners.None?
      ensures r.Some? ==> r.value.register < nRegisters && r.value.action < nActions
    {
      EvalAction(table, nRegisters, nActions, consts, d)
    }

    /** `update`: moves the current cell by `alpha * (reward + gamma * next - current)`;
      no other cell changes and the shape is kept. */
    method Update(current: ActionRegisterPair, reward: real, next: ActionRegisterPair)
      requires Valid()
      requires current.register < nRegisters && current.action < nActions && next.register < nRegisters
      modifies this
      ensures Valid()
      ensures table == UpdatedTable(old(table), nRegisters, nActions, consts, current, reward, next)
    {
      var currentQValue := table[current.register][current.action];
      var nextQValue := ActionArgmax(next.register) as real;
      var newQValue := consts.alpha * (reward + consts.gamma * nextQValue - currentQValue);
      ghost var expected := UpdatedTable(table, nRegisters, nActions, consts, current, reward, next);
      assert nextQValue == ArgMax(table[next.register]) as real;
      assert expected[current.register][current.action] == currentQValue + newQValue;
      table := table[current.register := table[current.register][current.action := currentQValue + newQValue]];
      assert table == expected;
    }
  }

  // ------------------------------------------------------------ eval_fitness

  /** The environment's answer to an action (`sim`). */
  datatype StateRewardPair = StateRewardPair(reward: real, terminal: bool)

  /** What `eval_fitness` sees of the environment and of the program it runs:
      `observe(run, step)` is the `eval` input after `Program::exec` at that
      step of that run, `sim(run, step, action)` the environment's answer. */
  datatype Environment = Environment(observe: (nat, nat) -> Draw, sim: (nat, nat, nat) -> StateRewardPair)

  /** Everything a run depends on besides the table. */
  datatype Setup = Setup(nRegisters: nat, nActions: nat, consts: QConsts, env: Environment, maxEpisodeLength: nat)

  ghost predicate ValidSetup(s: Setup) {
    && 0.0 <= s.consts.epsilon <= 1.0
    && forall run, step :: ValidDraw(s.env.observe(run, step), s.nRegisters, s.nActions)
  }

  /** The result of one run: its score, its table, how many environment
      steps it took, and the pair it held when the loop ended (the one whose
      action was answered last when the run stopped early). */
  datatype Run = Run(score: real, table: Table, steps: nat, last: ActionRegisterPair)

  /** The episode loop from `step` on, with `cur` the pair chosen last and
      `score` the reward so far; `None` when a lookup finds no winning register. */
  function Steps(s: Setup, t: Table, run: nat, step: nat, cur: ActionRegisterPair, score: real): (r: Option<Run>)
    requires ValidSetup(s) && Shaped(t, s.nRegisters, s.nActions)
    requires cur.register < s.nRegisters && cur.action < s.nActions
    requires step <= s.maxEpisodeLength
    ensures r.Some? ==> Shaped(r.value.table, s.nRegisters, s.nActions)
    ensures r.Some? ==> step <= r.value.steps <= s.maxEpisodeLength
    decreases s.maxEpisodeLength - step
  {
    if step == s.maxEpisodeLength then Some(Run(score, t, step, cur))
    else
      var answer := s.env.sim(run, step, cur.action);
      var total := score + answer.reward;
      if answer.terminal then Some(Run(total, t, step + 1, cur))
      else
        match EvalAction(t, s.nRegisters, s.nActions, s.consts, s.env.observe(run, step + 1))
        case None => None
        case Some(next) =>
          var t' := if cur.register != next.register then UpdatedTable(t, s.nRegisters, s.nActions, s.consts, cur, answer.reward, next) else t;
          Steps(s, t', run, step + 1, next, total)
  }

  /** One step of the episode loop: a terminal answer ends the run, a failed
      lookup makes it bail out, and otherwise the run goes on from the next
      pair, with the table updated when the register changed. */
  lemma StepsNext(s: Setup, t: Table, run: nat, step: nat, cur: ActionRegisterPair, score: real)
    requires ValidSetup(s) && Shaped(t, s.nRegisters, s.nActions)
    requires cur.register < s.nRegisters && cur.action < s.nActions
    requires step < s.maxEpisodeLength
    ensures var answer := s.env.sim(run, step, cur.action);
      var next := EvalAction(t, s.nRegisters, s.nActions, s.consts, s.env.observe(run, step + 1));
      && (answer.terminal ==> Steps(s, t, run, step, cur, score) == Some(Run(score + answer.reward, t, step + 1, cur)))
      && (!answer.terminal && next.None? ==> Steps(s, t, run, step, cur, score) == None)
      && (!answer.terminal && next.Some? ==>
            Steps(s, t, run, step, cur, score)
            == Steps(s, if cur.register != next.value.register then UpdatedTable(t, s.nRegisters, s.nActions, s.consts, cur, answer.reward, next.value) else t,
                     run, step + 1, next.value, score + answer.reward))
  {
  }

  /** A run that has used up `max_episode_length` steps ends there. */
  lemma StepsEnd(s: Setup, t: Table, run: nat, cur: ActionRegisterPair, score: real)
    requires ValidSetup(s) && Shaped(t, s.nRegisters, s.nActions)
    requires cur.register < s.nRegisters && cur.action < s.nActions
    ensures Steps(s, t, run, s.maxEpisodeLength, cur, score) == Some(Run(score, t, s.maxEpisodeLength, cur))
  {
  }

  /** What the run from step `step` on comes to, with `cur` chosen last and `score` so far. */
  ghost function Rest(s: Setup, t: Table, run: nat, step: nat, cur: ActionRegisterPair, score: real): Option<Run>
    requires ValidSetup(s) && Shaped(t, s.nRegisters, s.nActions)
    requires cur.register < s.nRegisters && cur.action < s.nActions
    requires step <= s.maxEpisodeLength
  {
    Steps(s, t, run, step, cur, score)
  }

  /** One run from the table `t`: the first lookup, then the episode loop. */
  function Episode(s: Setup, t: Table, run: nat): (r: Option<Run>)
    requires ValidSetup(s) && Shaped(t, s.nRegisters, s.nActions)
    ensures r.Some? ==> Shaped(r.value.table, s.nRegisters, s.nActions) && r.value.steps <= s.maxEpisodeLength
  {
    match EvalAction(t, s.nRegisters, s.nActions, s.consts, s.env.observe(run, 0))
    case None => None
    case Some(first) => Steps(s, t, run, 0, first, 0.0)
  }

  /** The first `n` runs, each from the same starting table; `None` as soon as one of them bails out. */
  function Runs(s: Setup, t: Table, n: nat): (rs: Option<seq<Run>>)
    requires ValidSetup(s) && Shaped(t, s.nRegisters, s.nActions)
    ensures rs.Some? ==> |rs.value| == n
  {
    if n == 0 then Some([])
    else
      match Runs(s, t, n - 1)
      case None => None
      case Some(rs) =>
        match Episode(s, t, n - 1)
        case None => None
        case Some(r) => Some(rs + [r])
  }

  /** The runs bail out exactly when the run of some initial state does. */
  lemma {:induction false} RunsNoneIff(s: Setup, t: Table, n: nat)
    requires ValidSetup(s) && Shaped(t, s.nRegisters, s.nActions)
    ensures Runs(s, t, n).None? <==> exists j :: 0 <= j < n && Episode(s, t, j).None?
  {
    if n > 0 {
      RunsNoneIff(s, t, n - 1);
      if Runs(s, t, n - 1).None? {
        assert Runs(s, t, n).None?;
        var j :| 0 <= j < n - 1 && Episode(s, t, j).None?;
        assert 0 <= j < n && Episode(s, t, j).None?;
      } else if Episode(s, t, n - 1).None? {
        assert Runs(s, t, n).None?;
        assert 0 <= n - 1 < n && Episode(s, t, n - 1).None?;
      } else {
        assert Runs(s, t, n).Some?;
        forall j | 0 <= j < n ensures Episode(s, t, j).Some? {
          if j < n - 1 {
            assert !(0 <= j < n - 1 && Episode(s, t, j).None?);
          }
        }
      }
    }
  }

  /** When no run bails out, the j-th result is the j-th initial state's run. */
  lemma {:induction false} RunsAreEpisodes(s: Setup, t: Table, n: nat, j: nat)
    requires ValidSetup(s) && Shaped(t, s.nRegisters, s.nActions)
    requires Runs(s, t, n).Some? && j < n
    ensures Episode(s, t, j) == Some(Runs(s, t, n).value[j])
  {
    var rs := Runs(s, t, n - 1).value;
    assert Runs(s, t, n).value == rs + [Episode(s, t, n - 1).value];
    if j < n - 1 {
      RunsAreEpisodes(s, t, n - 1, j);
    }
  }

  /** One run bailing out makes all of them bail out. */
  lemma RunsBailOut(s: Setup, t: Table, n: nat, j: nat)
    requires ValidSetup(s) && Shaped(t, s.nRegisters, s.nActions)
    requires j < n && Episode(s, t, j).None?
    ensures Runs(s, t, n).None?
  {
    RunsNoneIff(s, t, n);
  }

  function RunScore(r: Run): real { r.score }

  predicate ScoreLe(a: real, b: real) { a <= b }

  /** The runs sorted by score, ascending and stable (`sort_by` on the score):
      runs with the same score keep the order of their initial states. */
  function SortedRuns(rs: seq<Run>): (sorted: seq<Run>)
    ensures |sorted| == |rs| && multiset(sorted) == multiset(rs)
    ensures Sorting.SortedBy(sorted, RunScore, ScoreLe)
    ensures forall v :: Sorting.Tied(sorted, RunScore, ScoreLe, v) == Sorting.Tied(rs, RunScore, ScoreLe, v)
  {
    Sorting.SortBySorted(rs, RunScore, ScoreLe);
    Sorting.SortByStable(rs, RunScore, ScoreLe);
    Sorting.SortBy(rs, RunScore, ScoreLe)
  }

  /** The run `swap_remove(len / 2)` takes out of the sorted runs. */
  function MedianRun(rs: seq<Run>): (m: Run)
    requires |rs| > 0
    ensures m in rs
  {
    var sorted := SortedRuns(rs);
    assert sorted[|rs| / 2] in multiset(sorted);
    sorted[|rs| / 2]
  }

  /** The median run is one of the runs, no run sorted before it scores more
      and no run sorted after it scores less. */
  lemma MedianRunIsMedian(rs: seq<Run>)
    requires |rs| > 0
    ensures MedianRun(rs) in rs
    ensures var sorted := SortedRuns(rs);
      && (forall i :: 0 <= i < |rs| / 2 ==> sorted[i].score <= MedianRun(rs).score)
      && (forall i :: |rs| / 2 < i < |rs| ==> MedianRun(rs).score <= sorted[i].score)
  {
    var sorted := SortedRuns(rs);
    assert sorted[|rs| / 2] in multiset(sorted);
    assert MedianRun(rs) in multiset(rs);
    forall i | 0 <= i < |rs| / 2 ensures sorted[i].score <= MedianRun(rs).score {
      assert ScoreLe(RunScore(sorted[i]), RunScore(sorted[|rs| / 2]));
    }
    forall i | |rs| / 2 < i < |rs| ensures MedianRun(rs).score <= sorted[i].score {
      assert ScoreLe(RunScore(sorted[|rs| / 2]), RunScore(sorted[i]));
    }
  }

  /** The median run's table has the shape of the table the runs started from. */
  lemma MedianRunShaped(s: Setup, t: Table, n: nat)
    requires ValidSetup(s) && Shaped(t, s.nRegisters, s.nActions)
    requires n > 0 && Runs(s, t, n).Some?
    ensures Shaped(MedianRun(Runs(s, t, n).value).table, s.nRegisters, s.nActions)
  {
    var rs := Runs(s, t, n).value;
    MedianRunIsMedian(rs);
    var j :| 0 <= j < |rs| && rs[j] == MedianRun(rs);
    RunsAreEpisodes(s, t, n, j);
  }

  /** A run that ends before `max_episode_length` steps, with `r` the result
      of the run from `step` on, ended because the environment answered
      terminal to the action of the pair the run held at its last step. */
  lemma {:induction false} EarlyEndIsTerminal(s: Setup, t: Table, run: nat, step: nat, cur: ActionRegisterPair, score: real, r: Option<Run>)
    requires ValidSetup(s) && Shaped(t, s.nRegisters, s.nActions)
    requires cur.register < s.nRegisters && cur.action < s.nActions
    requires step <= s.maxEpisodeLength
    requires r == Steps(s, t, run, step, cur, score)
    ensures r.Some? && r.value.steps < s.maxEpisodeLength ==>
      step < r.value.steps && s.env.sim(run, r.value.steps - 1, r.value.last.action).terminal
    decreases s.maxEpisodeLength - step
  {
    if step < s.maxEpisodeLength {
      StepsNext(s, t, run, step, cur, score);
      var answer := s.env.sim(run, step, cur.action);
      if !answer.terminal {
        var next := EvalAction(t, s.nRegisters, s.nActions, s.consts, s.env.observe(run, step + 1));
        if next.Some? {
          var t' := if cur.register != next.value.register then UpdatedTable(t, s.nRegisters, s.nActions, s.consts, cur, answer.reward, next.value) else t;
          EarlyEndIsTerminal(s, t', run, step + 1, next.value, score + answer.reward, r);
        }
      }
    }
  }

  /** A run whose lookups always find the same register never changes its table. */
  lemma {:induction false} SameRegisterKeepsTable(s: Setup, t: Table, run: nat, step: nat, cur: ActionRegisterPair, score: real)
    requires ValidSetup(s) && Shaped(t, s.nRegisters, s.nActions)
    requires cur.register < s.nRegisters && cur.action < s.nActions
    requires step <= s.maxEpisodeLength
    requires forall k :: step < k <= s.maxEpisodeLength ==>
      s.env.observe(run, k).winners.Some? ==> s.env.observe(run, k).winners.value[s.env.observe(run, k).pick] == cur.register
    ensures var r := Steps(s, t, run, step, cur, score); r.Some? ==> r.value.table == t
    decreases s.maxEpisodeLength - step
  {
    if step < s.maxEpisodeLength {
      var answer := s.env.sim(run, step, cur.action);
      if !answer.terminal {
        var next := EvalAction(t, s.nRegisters, s.nActions, s.consts, s.env.observe(run, step + 1));
        if next.Some? {
          SameRegisterKeepsTable(s, t, run, step + 1, next.value, score + answer.reward);
        }
      }
    }
  }

  /** How one step of the episode loop ends: the run goes on from `next`,
      the environment answered terminal, or the lookup found no winner. */
  datatype StepOutcome = Continue(next: ActionRegisterPair, reward: real) | Terminal(reward: real) | BailOut

  /** One step of the episode loop on `currentQTable`: ask the environment,
      stop on a terminal answer, otherwise look up the next pair and update
      the table when the register changed. When `target` is what the rest of
      the run from here comes to (`Steps`), it still is from the new state. */
  method EpisodeStep(currentQTable: QTable, run: nat, step: nat, cur: ActionRegisterPair, score: real,
                     env: Environment, maxEpisodeLength: nat, ghost s: Setup, ghost target: Option<Run>)
    returns (o: StepOutcome)
    requires s == Setup(currentQTable.nRegisters, currentQTable.nActions, currentQTable.consts, env, maxEpisodeLength)
    requires currentQTable.Valid() && ValidSetup(s)
    requires cur.register < s.nRegisters && cur.action < s.nActions
    requires step < maxEpisodeLength
    requires Rest(s, currentQTable.table, run, step, cur, score) == target
    modifies currentQTable
    ensures currentQTable.Valid()
    ensures o.Terminal? ==> currentQTable.table == old(currentQTable.table) && target == Some(Run(score + o.reward, currentQTable.table, step + 1, cur))
    ensures o.BailOut? ==> target == None
    ensures o.Continue? ==> && o.next.register < s.nRegisters && o.next.action < s.nActions
                            && Rest(s, currentQTable.table, run, step + 1, o.next, score + o.reward) == target
  {
    StepsNext(s, currentQTable.table, run, step, cur, score);
    var stateRewardPair := env.sim(run, step, cur.action);
    var reward := stateRewardPair.reward;
    if stateRewardPair.terminal {
      return Terminal(reward);
    }
    var nextActionState := currentQTable.Eval(env.observe(run, step + 1));
    if nextActionState.None? {
      return BailOut;
    }
    var next := nextActionState.value;
    if cur.register != next.register {
      currentQTable.Update(cur, reward, next);
    }
    o := Continue(next, reward);
  }

  /** One iteration of the `eval_fitness` loop over initial states, played on
      `currentQTable` (a clone of the program's table): the result is the
      run `Episode` describes, and the table ends up as that run's table. */
  method PlayEpisode(currentQTable: QTable, run: nat, env: Environment, maxEpisodeLength: nat) returns (r: Option<Run>)
    requires currentQTable.Valid()
    requires ValidSetup(Setup(currentQTable.nRegisters, currentQTable.nActions, currentQTable.consts, env, maxEpisodeLength))
    modifies currentQTable
    ensures r == Episode(Setup(currentQTable.nRegisters, currentQTable.nActions, currentQTable.consts, env, maxEpisodeLength), old(currentQTable.table), run)
    ensures r.Some? ==> currentQTable.Valid() && currentQTable.table == r.value.table
  {
    var first := currentQTable.Eval(env.observe(run, 0));
    if first.None? {
      return None;
    }
    r := EpisodeLoop(currentQTable, run, first.value, env, maxEpisodeLength);
  }

  /** The `for _step in 0..max_episode_length` loop of one run, from the
      pair `first` and a score of 0: the result is what `Steps` says of the
      run from there, and the table ends up as that run's table. */
  method EpisodeLoop(currentQTable: QTable, run: nat, first: ActionRegisterPair, env: Environment, maxEpisodeLength: nat)
    returns (r: Option<Run>)
    requires currentQTable.Valid()
    requires ValidSetup(Setup(currentQTable.nRegisters, currentQTable.nActions, currentQTable.consts, env, maxEpisodeLength))
    requires first.register < currentQTable.nRegisters && first.action < currentQTable.nActions
    modifies currentQTable
    ensures r == Steps(Setup(currentQTable.nRegisters, currentQTable.nActions, currentQTable.consts, env, maxEpisodeLength), old(currentQTable.table), run, 0, first, 0.0)
    ensures r.Some? ==> currentQTable.Valid() && currentQTable.table == r.value.table
  {
    ghost var s := Setup(currentQTable.nRegisters, currentQTable.nActions, currentQTable.consts, env, maxEpisodeLength);
    ghost var target := Steps(s, currentQTable.table, run, 0, first, 0.0);
    var score := 0.0;
    var currentActionState := first;
    var steps := maxEpisodeLength;
    var step := 0;
    while step < maxEpisodeLength
      invariant step <= maxEpisodeLength && steps == maxEpisodeLength
      invariant currentQTable.Valid()
      invariant currentActionState.register < s.nRegisters && currentActionState.action < s.nActions
      invariant Rest(s, currentQTable.table, run, step, currentActionState, score) == target
    {
      var outcome := EpisodeStep(currentQTable, run, step, currentActionState, score, env, maxEpisodeLength, s, target);
      if outcome.BailOut? {
        return None;
      }
      score := score + outcome.reward;
      if outcome.Terminal? {
        steps := step + 1;
        break;
      }
      currentActionState := outcome.next;
      step := step + 1;
    }
    if step == maxEpisodeLength {
      StepsEnd(s, currentQTable.table, run, currentActionState, score);
    }
    r := Some(Run(score, currentQTable.table, steps, currentActionState));
  }

  /** The loop of `eval_fitness` over the initial states: one run each, from
      a clone of `original`, stopping at the first run that bails out.
      `original` itself is left alone. */
  method CollectRuns(original: QTable, nInitialStates: nat, env: Environment, maxEpisodeLength: nat)
    returns (r: Option<seq<Run>>)
    requires original.Valid()
    requires ValidSetup(Setup(original.nRegisters, original.nActions, original.consts, env, maxEpisodeLength))
    ensures r == Runs(Setup(original.nRegisters, original.nActions, original.consts, env, maxEpisodeLength), original.table, nInitialStates)
  {
    ghost var s := Setup(original.nRegisters, original.nActions, original.consts, env, maxEpisodeLength);
    var scoreQTablePairs: seq<Run> := [];
    var run := 0;
    while run < nInitialStates
      invariant run <= nInitialStates
      invariant Runs(s, original.table, run) == Some(scoreQTablePairs)
    {
      var currentQTable := original.Clone();
      var result := PlayEpisode(currentQTable, run, env, maxEpisodeLength);
      if result.None? {
        RunsBailOut(s, original.table, nInitialStates, run);
        return None;
      }
      scoreQTablePairs := scoreQTablePairs + [result.value];
      run := run + 1;
    }
    r := Some(scoreQTablePairs);
  }

  /** A program (its instructions are left abstract) and its fitness. */
  datatype Program<I> = Program(instructions: seq<I>, fitness: FitnessEngine.FitnessScore)

  /** `QProgram`: a program and the Q-table it acts through. */
  class QProgram<I(==)> {
    var qTable: QTable
    var program: Program<I>

    constructor (program: Program<I>, qTable: QTable)
      ensures this.program == program && this.qTable == qTable
    {
      this.program, this.qTable := program, qTable;
    }

    /** `eq`: two Q-programs are equal when their programs are; tables are
        ignored. Equality agrees with the order: equal Q-programs compare `Equal`. */
    predicate Equals(other: QProgram<I>)
      reads this, other
      ensures Equals(other) ==> FitnessEngine.PartialCmp(program.fitness, other.program.fitness) == FitnessEngine.Equal
    {
      FitnessEngine.PartialCmpAntisymmetric(program.fitness, other.program.fitness);
      program == other.program
    }

    /** `partial_cmp`: the order of the programs' fitness scores, which
        reverses when the two are swapped. */
    function PartialCmp(other: QProgram<I>): (o: FitnessEngine.Ordering)
      reads this, other
      ensures o.Reverse() == FitnessEngine.PartialCmp(other.program.fitness, program.fitness)
    {
      FitnessEngine.PartialCmpAntisymmetric(program.fitness, other.program.fitness);
      FitnessEngine.PartialCmp(program.fitness, other.program.fitness)
    }

    /** `get_fitness`: the wrapped program's score, the one the order compares. */
    function GetFitness(): (f: FitnessEngine.FitnessScore)
      reads this
      ensures f == program.fitness
    {
      program.fitness
    }

    /** `two_point_crossover`: the programs' children, each with a fresh zero
        table shaped like THIS parent's. */
    method TwoPointCrossover(mate: QProgram<I>, breed: (Program<I>, Program<I>) -> (Program<I>, Program<I>))
      returns (childA: QProgram<I>, childB: QProgram<I>)
      ensures fresh(childA) && fresh(childB) && fresh(childA.qTable) && fresh(childB.qTable)
      ensures childA.qTable != childB.qTable
      ensures (childA.program, childB.program) == breed(program, mate.program)
      ensures childA.qTable.Valid() && childA.qTable.table == Zeros(qTable.nRegisters, qTable.nActions)
      ensures childB.qTable.Valid() && childB.qTable.table == Zeros(qTable.nRegisters, qTable.nActions)
      ensures childA.qTable.nActions == childB.qTable.nActions == qTable.nActions
      ensures childA.qTable.nRegisters == childB.qTable.nRegisters == qTable.nRegisters
      ensures childA.qTable.consts == childB.qTable.consts == qTable.consts
    {
      var children := breed(program, mate.program);
      var tableA := qTable.DuplicateNew();
      childA := new QProgram(children.0, tableA);
      var tableB := qTable.DuplicateNew();
      childB := new QProgram(children.1, tableB);
    }

    /** `mutate`: the mutated program with a fresh zero table of the same shape. */
    method Mutate(mutateProgram: Program<I> -> Program<I>) returns (child: QProgram<I>)
      ensures fresh(child) && fresh(child.qTable)
      ensures child.program == mutateProgram(program)
      ensures child.qTable.Valid() && child.qTable.table == Zeros(qTable.nRegisters, qTable.nActions)
      ensures child.qTable.nActions == qTable.nActions && child.qTable.nRegisters == qTable.nRegisters
      ensures child.qTable.consts == qTable.consts
    {
      var table := qTable.DuplicateNew();
      child := new QProgram(mutateProgram(program), table);
    }

    /** `eval_fitness`: one run per initial state, each from a clone of the
        current table. A failed lookup makes the fitness `OutOfBounds` and
        leaves the table alone; otherwise the fitness is the median run's
        score and the table becomes that run's table. */
    method EvalFitness(nInitialStates: nat, maxEpisodeLength: nat, env: Environment)
      requires qTable.Valid()
      requires ValidSetup(Setup(qTable.nRegisters, qTable.nActions, qTable.consts, env, maxEpisodeLength))
      requires nInitialStates > 0
      modifies this
      ensures var rs := Runs(Setup(old(qTable).nRegisters, old(qTable).nActions, old(qTable).consts, env, maxEpisodeLength),
                             old(qTable.table), nInitialStates);
        rs.None? ==> program == old(program).(fitness := FitnessEngine.OutOfBounds) && qTable == old(qTable)
      ensures var rs := Runs(Setup(old(qTable).nRegisters, old(qTable).nActions, old(qTable).consts, env, maxEpisodeLength),
                             old(qTable.table), nInitialStates);
        rs.Some? ==>
          && program == old(program).(fitness := FitnessEngine.Valid(MedianRun(rs.value).score))
          && fresh(qTable) && qTable.Valid() && qTable.table == MedianRun(rs.value).table
          && qTable.nRegisters == old(qTable).nRegisters && qTable.nActions == old(qTable).nActions
          && qTable.consts == old(qTable).consts
      ensures old(qTable).table == old(qTable.table)
      ensures !FitnessEngine.IsNotEvaluated(GetFitness())
    {
      var original := qTable;
      ghost var s := Setup(original.nRegisters, original.nActions, original.consts, env, maxEpisodeLength);
      var runs := CollectRuns(original, nInitialStates, env, maxEpisodeLength);
      if runs.None? {
        program := program.(fitness := FitnessEngine.OutOfBounds);
        return;
      }
      var scoreQTablePairs := runs.value;
      var median := MedianRun(scoreQTablePairs);
      MedianRunShaped(s, original.table, nInitialStates);
      program := program.(fitness := FitnessEngine.Valid(median.score));
      qTable := new QTable.WithTable(original.nActions, original.nRegisters, original.consts, median.table);
    }
  }
}

=== FILE: sorting.dfy ===
/** A stable sort by key, the model of `sort`/`sort_by` over a vector whose
    elements are compared through a key and a total preorder on keys. */
module Sorting {

  /** `le` is total and transitive: a total preorder, as a comparison used for sorting must be. */
  ghost predicate TotalPreorder<K(!new)>(le: (K, K) -> bool) {
    && (forall a, b :: le(a, b) || le(b, a))
    && (forall a, b, c :: le(a, b) && le(b, c) ==> le(a, c))
  }

  /** Every earlier element's key comes before every later element's key. */
  ghost predicate SortedBy<T, K>(s: seq<T>, key: T -> K, le: (K, K) -> bool) {
    forall i, j :: 0 <= i < j < |s| ==> le(key(s[i]), key(s[j]))
  }

  /** Inserts `x` before the first element whose key it precedes. */
  function Insert<T, K>(x: T, s: seq<T>, key: T -> K, le: (K, K) -> bool): (r: seq<T>)
    ensures |r| == |s| + 1
    ensures multiset(r) == multiset(s) + multiset{x}
  {
    if s == [] then [x]
    else if le(key(x), key(s[0])) then [x] + s
    else
      assert s == [s[0]] + s[1..];
      [s[0]] + Insert(x, s[1..], key, le)
  }

  /** Insertion sort: equal keys keep their original order. */
  function SortBy<T, K>(s: seq<T>, key: T -> K, le: (K, K) -> bool): (r: seq<T>)
    ensures |r| == |s|
    ensures multiset(r) == multiset(s)
  {
    if s == [] then []
    else
      assert s == [s[0]] + s[1..];
      Insert(s[0], SortBy(s[1..], key, le), key, le)
  }

  /** Inserting into a sorted sequence keeps it sorted. */
  lemma {:induction false} InsertSorted<T, K(!new)>(x: T, s: seq<T>, key: T -> K, le: (K, K) -> bool)
    requires TotalPreorder(le)
    requires SortedBy(s, key, le)
    ensures SortedBy(Insert(x, s, key, le), key, le)
  {
    if s == [] {
    } else if le(key(x), key(s[0])) {
      InsertAtFrontSorted(x, s, key, le);
    } else {
      InsertSorted(x, s[1..], key, le);
      InsertBehindSorted(x, s, key, le);
    }
  }

  /** When `x` goes in front, the result stays sorted because the old front bounds the rest. */
  lemma InsertAtFrontSorted<T, K(!new)>(x: T, s: seq<T>, key: T -> K, le: (K, K) -> bool)
    requires TotalPreorder(le)
    requires SortedBy(s, key, le)
    requires s != [] && le(key(x), key(s[0]))
    ensures SortedBy([x] + s, key, le)
  {
    var r := [x] + s;
    forall i, j | 0 <= i < j < |r| ensures le(key(r[i]), key(r[j])) {
      if i == 0 && j > 1 {
        assert le(key(s[0]), key(s[j - 1]));
      }
    }
  }

  /** When `x` goes behind the front element, the front still precedes
      everything inserted behind it. */
  lemma InsertBehindSorted<T, K(!new)>(x: T, s: seq<T>, key: T -> K, le: (K, K) -> bool)
    requires TotalPreorder(le)
    requires SortedBy(s, key, le)
    requires s != [] && !le(key(x), key(s[0]))
    requires SortedBy(Insert(x, s[1..], key, le), key, le)
    ensures SortedBy([s[0]] + Insert(x, s[1..], key, le), key, le)
  {
    var rest := Insert(x, s[1..], key, le);
    var r := [s[0]] + rest;
    forall k | 0 <= k < |rest| ensures le(key(s[0]), key(rest[k])) {
      InsertMember(x, s[1..], key, le, k);
      if rest[k] != x {
        var m :| 0 <= m < |s[1..]| && s[1..][m] == rest[k];
        assert s[1..][m] == s[m + 1];
      }
    }
    forall i, j | 0 <= i < j < |r| ensures le(key(r[i]), key(r[j])) {
      if i == 0 {
        assert r[j] == rest[j - 1];
      } else {
        assert r[i] == rest[i - 1] && r[j] == rest[j - 1];
      }
    }
  }

  /** Every element of an insertion's result is the inserted one or an old one. */
  lemma InsertMember<T, K>(x: T, s: seq<T>, key: T -> K, le: (K, K) -> bool, k: nat)
    requires k < |Insert(x, s, key, le)|
    ensures Insert(x, s, key, le)[k] == x || Insert(x, s, key, le)[k] in s
  {
    var r := Insert(x, s, key, le);
    assert r[k] in multiset(r);
  }

  /** The result of `SortBy` is ordered by key (and, by its ensures, a permutation of the input). */
  lemma {:induction false} SortBySorted<T, K(!new)>(s: seq<T>, key: T -> K, le: (K, K) -> bool)
    requires TotalPreorder(le)
    ensures SortedBy(SortBy(s, key, le), key, le)
  {
    if s != [] {
      SortBySorted(s[1..], key, le);
      InsertSorted(s[0], SortBy(s[1..], key, le), key, le);
    }
  }

  /** The elements of `s` whose key is tied with `k` (each precedes the other
      under `le`), in their order in `s`. */
  function Tied<T, K>(s: seq<T>, key: T -> K, le: (K, K) -> bool, k: K): seq<T> {
    if s == [] then []
    else (if le(key(s[0]), k) && le(k, key(s[0])) then [s[0]] else []) + Tied(s[1..], key, le, k)
  }

  /** Inserting `x` puts it in front of every element tied with it and keeps
      the order of the others. */
  lemma {:induction false} InsertTies<T, K(!new)>(x: T, s: seq<T>, key: T -> K, le: (K, K) -> bool, k: K)
    requires TotalPreorder(le)
    ensures Tied(Insert(x, s, key, le), key, le, k) == Tied([x], key, le, k) + Tied(s, key, le, k)
  {
    assert [x][1..] == [];
    if s == [] {
    } else if le(key(x), key(s[0])) {
      assert ([x] + s)[1..] == s;
    } else {
      InsertTies(x, s[1..], key, le, k);
      var r := [s[0]] + Insert(x, s[1..], key, le);
      assert r[1..] == Insert(x, s[1..], key, le);
      if le(key(x), k) && le(k, key(x)) {
        assert !(le(key(s[0]), k) && le(k, key(s[0])));
      }
    }
  }

  /** The elements tied with `k` come out of `SortBy` in their input order. */
  lemma {:induction false} SortByKeepsTies<T, K(!new)>(s: seq<T>, key: T -> K, le: (K, K) -> bool, k: K)
    requires TotalPreorder(le)
    ensures Tied(SortBy(s, key, le), key, le, k) == Tied(s, key, le, k)
  {
    if s != [] {
      var rest := SortBy(s[1..], key, le);
      assert SortBy(s, key, le) == Insert(s[0], rest, key, le);
      SortByKeepsTies(s[1..], key, le, k);
      InsertTies(s[0], rest, key, le, k);
      TiedHead(s, key, le, k);
    }
  }

  /** The tied elements of `s` are those of its head followed by those of its tail. */
  lemma TiedHead<T, K>(s: seq<T>, key: T -> K, le: (K, K) -> bool, k: K)
    requires s != []
    ensures Tied(s, key, le, k) == Tied([s[0]], key, le, k) + Tied(s[1..], key, le, k)
  {
    assert [s[0]][1..] == [];
  }

  /** `SortBy` is stable: for every key, the elements tied with it keep their
      relative order. */
  lemma SortByStable<T, K(!new)>(s: seq<T>, key: T -> K, le: (K, K) -> bool)
    requires TotalPreorder(le)
    ensures forall k :: Tied(SortBy(s, key, le), key, le, k) == Tied(s, key, le, k)
  {
    forall k ensures Tied(SortBy(s, key, le), key, le, k) == Tied(s, key, le, k) {
      SortByKeepsTies(s, key, le, k);
    }
  }
}

=== FILE: wrappers.dfy ===
/** Small failure-carrying datatypes shared by the model. */
module Wrappers {

  /** Rust's `Option<T>`. */
  datatype Option<+T> = None | Some(value: T)

  /** The outcome of a computation that either returns a value or panics
      (an `assert!`, `debug_assert!`, `unwrap` or `expect` that fails). */
  datatype Outcome<+T> = Ok(value: T) | Panic(message: string)
}
